=== FILE: README.md ===
# nebula_watcher, modelled in Dafny

nebula_watcher reads nmap XML results into per-host target records (address,
open ports, service names, vulnerability identifiers). It keeps a colour map of
which addresses and ports have been engaged, and draws them as a diagram. It
then watches the machine's network connections, and turns an address and port
green once a connection to it is seen. A small release script, `bump_version.py`,
increments the last segment of the version number in `setup.py`.

This project models the logic of those steps over abstract inputs and proves
what each step guarantees:

- `basics.dfy` (`Basics`): an option type, ASCII digits, `str(n)` and `int(s)` for naturals.
- `text.dfy` (`Text`): Python's `str.split`, `str.join` and `str.replace` for a non-empty separator.
- `cve_pattern.dfy` (`CvePattern`): `CVE-\d{4}-\d{4,7}` under `re.IGNORECASE`, with `findall`, as a hand scanner.
- `xml_tree.dfy` (`XmlTree`): an already-parsed ElementTree and its `attrib.get`, `find` and `findall`.
  - It also defines the two ways identifiers are gathered from a subtree: the inline scans of `parse_nmap`, and `_extract_cves`.
- `nmap_import.dfy` (`NmapImport`): the host loop of `parse_nmap`.
- `coverage.dfy` (`Coverage`): the colour map (`ip_port_color`) as seen by `generate_diagram`.
  - This covers aggregation by address, the red backfill, the colour lookups with a red default, and the green update.
- `monitor.dfy` (`Monitor`): one pass of the connection check in `monitor_network_connections`, and its re-import timer.
  - The pass is a method over a list of connection samples.
- `bump_version.dfy` (`BumpVersion`): the script body of `bump_version.py` between reading and writing `setup.py`.

Colours are `Red | Green`. A port id or service name that the XML does not
carry stays absent (`None`); as a key of the colour map it is written `"None"`,
which is what `str(None)` gives.

## Model

| member | source | states |
|---|---|---|
| CvePattern.MatchAtIsLongestIdentifier | src/nebula_watcher/nebula_watcher.py:19 | A match of length n at position i exists exactly when the n characters there form an identifier (CVE letters in either case, four digits, four to seven digits) and the digit tail cannot be extended. |
| CvePattern.NoMatchInside | src/nebula_watcher/nebula_watcher.py:19 | Two matches never overlap: a later match starts at or after the end of an earlier one. |
| CvePattern.FindAllExact | src/nebula_watcher/nebula_watcher.py:19 | `FindAll` (`CVE_PATTERN.findall`) returns exactly the matches that start at some position of the input, each copied from the input with its original case. |
| CvePattern.ScanWithSound | src/nebula_watcher/nebula_watcher.py:19 | Whatever the left-to-right scan reports, for any matcher, is the match of that matcher at some position at or after the start. |
| CvePattern.ScanWithComplete | src/nebula_watcher/nebula_watcher.py:19 | When the matcher's matches never overlap, the scan reports every match at or after the start. |
| CvePattern.FindAllWellFormed | src/nebula_watcher/nebula_watcher.py:19 | Every identifier `findall` returns has the pattern's shape. |
| CvePattern.LowerCaseKept | src/nebula_watcher/nebula_watcher.py:19 | A lower-case identifier is found and returned in lower case. |
| CvePattern.EightDigitTailTruncated | src/nebula_watcher/nebula_watcher.py:19 | With no word boundary, an eight-digit tail yields its first seven digits. |
| CvePattern.ShortTailRejected | src/nebula_watcher/nebula_watcher.py:19 | A three-digit tail is not an identifier, even in text long enough to hold one: `CVE-2021-123 x` yields nothing. |
| CvePattern.ShortTextNoMatch | src/nebula_watcher/nebula_watcher.py:19 | `FindAll` on text shorter than 13 characters finds nothing. |
| CvePattern.WholeIdentifierFound | src/nebula_watcher/nebula_watcher.py:19 | `FindAll` on a string that is one identifier (a tail of four to seven digits) returns that string alone. |
| XmlTree.Lookup | src/nebula_watcher/nebula_watcher.py:249-252 | `attrib.get` is absent exactly when no attribute has the name, and otherwise gives the value of the first such attribute. |
| XmlTree.FindChild | src/nebula_watcher/nebula_watcher.py:249-260 | `find` finds nothing exactly when no child has the tag. Otherwise it gives the first child with that tag: every earlier child has another tag. |
| XmlTree.TaggedAppend | src/nebula_watcher/nebula_watcher.py:246 | `findall(tag)` keeps document order: on a concatenation it gives the matches of the first part, then those of the second. A lone element is kept exactly when its tag matches. |
| XmlTree.TaggedFirst | src/nebula_watcher/nebula_watcher.py:249-260 | The first element `findall(tag)` gives is the earliest element with the tag. |
| XmlTree.TaggedGrandchildrenMembers | src/nebula_watcher/nebula_watcher.py:257 | `findall("ports/port")` gives exactly the `port` children of the `ports` children. |
| XmlTree.TaggedGrandchildrenAppend | src/nebula_watcher/nebula_watcher.py:257 | The path lookup keeps document order: the `port` children of one `ports` section come before those of every later section. |
| XmlTree.TaggedGrandchildrenSingle | src/nebula_watcher/nebula_watcher.py:257 | A single section contributes its `port` children, in order, exactly when it is a `ports` element. With the row above, this fixes `findall("ports/port")` as the in-order nested filter. |
| XmlTree.ExtractWithinInline | src/nebula_watcher/nebula_watcher.py:361-376 | `ExtractCves` (`_extract_cves`: tags, text, attribute values) never finds more than `InlineCves` (the inline scans, which also search attribute names). |
| XmlTree.InlineIsExtractPlusNames | src/nebula_watcher/nebula_watcher.py:270-286 | The inline scans find exactly what `_extract_cves` finds plus the identifiers in the subtree's attribute names. |
| XmlTree.AttributeNameScannedInlineOnly | src/nebula_watcher/nebula_watcher.py:282-283 | An identifier held only in an attribute name is found by the inline scans and missed by `_extract_cves`. |
| XmlTree.PathCvesWithin | src/nebula_watcher/nebula_watcher.py:257-286 | The identifiers of a `ports/port` element are among those of the host it belongs to. |
| XmlTree.TreeCvesWellFormed | src/nebula_watcher/nebula_watcher.py:228-244 | Every identifier gathered from a subtree, by either scan, has the pattern's shape. |
| XmlTree.ForestCvesUnion | src/nebula_watcher/nebula_watcher.py:270-286 | The identifiers of a list of subtrees are the union of each subtree's identifiers. |
| NmapImport.CollectOpen | src/nebula_watcher/nebula_watcher.py:257-267 | The kept ports have no repeats and one service each. A port id is kept exactly when some entry with it is open. Beside each port stands the label of the first open entry with that id, with `domain` recorded as `dns`. |
| NmapImport.Traverse | src/nebula_watcher/nebula_watcher.py:257-260 | The loop succeeds exactly when every element reads. It then gives one result per element in order; otherwise it reports the first element that failed. |
| NmapImport.ParseHost | src/nebula_watcher/nebula_watcher.py:246-310 | The host fails exactly when `hostnames/hostname` or `address` is missing, or some `ports/port` entry lacks `state` or `service`. Otherwise its hostname and ip are the `name` and `addr` attributes, or `Unknown`. Its ports and services are what the port loop collects over the `ReadPort` readings of its entries. Its identifiers are exactly those found in its own `ports/port` subtrees. |
| NmapImport.ParseDocument | src/nebula_watcher/nebula_watcher.py:246-312 | A document parses exactly when each of its `host` elements does. It then gives one record per `host` element, in document order, each parsed on its own. |
| NmapImport.ParseNmap | src/nebula_watcher/nebula_watcher.py:215-312 | The import succeeds exactly when every document parses, and the records it returns are exactly those of the documents. |
| NmapImport.FlattenMembers | src/nebula_watcher/nebula_watcher.py:215-312 | A record is in the concatenated result exactly when it is in the records of some document. |
| NmapImport.ImportedHostsWellFormed | src/nebula_watcher/nebula_watcher.py:246-312 | Every imported record has a repeat-free port list with one service per port, and comes from some host element. |
| NmapImport.HostCvesWithinGlobal | src/nebula_watcher/nebula_watcher.py:225-244 | A returned host's identifiers are among the document-wide set, which the returned records do not carry. |
| Coverage.Aggregate | src/nebula_watcher/nebula_watcher.py:95-102 | The merged addresses are exactly the records' addresses. Each address's ports, services and identifiers are the unions over all records with that address. |
| Coverage.AggregateDependsOnlyOnMembers | src/nebula_watcher/nebula_watcher.py:95-102 | Two record lists with the same members aggregate to the same map, whatever the order or repetition. |
| Coverage.AggregateIgnoresRepeats | src/nebula_watcher/nebula_watcher.py:95-102 | Appending a record already in the list leaves the aggregate unchanged. |
| Coverage.AggregateUnion | src/nebula_watcher/nebula_watcher.py:95-102 | A port, service or identifier is in an address's merged entry exactly when some record with that address has it. |
| Coverage.Backfill | src/nebula_watcher/nebula_watcher.py:129-142 | The two backfill loops compute the reference backfilled state whatever order they visit addresses and ports in. |
| Coverage.FillEntry | src/nebula_watcher/nebula_watcher.py:140-142 | The inner loop gives an address's port map with every missing `str(port)` added as red. |
| Coverage.BackfillCoversAndKeeps | src/nebula_watcher/nebula_watcher.py:129-142 | After the backfill every aggregated address and port has a colour. The addresses are the old ones plus the aggregated ones, and every existing colour is unchanged. |
| Coverage.BackfillAddsRed | src/nebula_watcher/nebula_watcher.py:130-134 | A new address gets a red connection, and every port colour that was not there before is red. |
| Coverage.BackfillCovered | src/nebula_watcher/nebula_watcher.py:129-142 | When everything aggregated already has a colour, the backfill changes nothing. |
| Coverage.BackfillIdempotent | src/nebula_watcher/nebula_watcher.py:129-142 | A second backfill with the same aggregate changes nothing. |
| Coverage.RenderedColors | src/nebula_watcher/nebula_watcher.py:147-164 | For every aggregated address and port, `ConnectionColor` and `PortColor` (the `.get` lookups with a red default) find an entry after the backfill, so the default is never used. Each is green exactly when it was green before. |
| Coverage.MarkEngaged | src/nebula_watcher/nebula_watcher.py:347-352 | The update turns the address's connection and the given port green, adding the port when missing. Every other port and every other address is unchanged, and no address is added. |
| Coverage.UpdatesKeep | src/nebula_watcher/nebula_watcher.py:129-142 | Neither the backfill nor the green update removes an address or port, or turns anything green back to red. |
| Coverage.MarkCommutesWithBackfill | src/nebula_watcher/nebula_watcher.py:347-353 | Marking then backfilling gives the same state as backfilling then marking. |
| Monitor.KeyInjective | src/nebula_watcher/nebula_watcher.py:341 | Distinct (address, port) pairs give distinct `Key`s (`"ip:port"`). |
| Monitor.SampleHitsMembers | src/nebula_watcher/nebula_watcher.py:334-340 | A sample yields a match against a target (`Matches`) exactly when a local address is present, the remote address is an (ip, port) pair, the ip equals the target's and `str(port)` is among its ports. |
| Monitor.HitsMembers | src/nebula_watcher/nebula_watcher.py:333-340 | The matches of a pass are exactly the pairs (sample, target) that match, over all samples and targets. |
| Monitor.Fresh | src/nebula_watcher/nebula_watcher.py:341-344 | The new matches have pairwise distinct keys. A match is among them exactly when it occurs in the pass and its key was not remembered before. |
| Monitor.KeysOfDistinct | src/nebula_watcher/nebula_watcher.py:341-344 | Matches with distinct keys add as many keys to `unique_matches` as there are matches. |
| Monitor.MarkAllEffect | src/nebula_watcher/nebula_watcher.py:347-352 | Marking a set of matches adds no address, turns every matched address and port green, leaves unmatched addresses alone and turns nothing red. |
| Monitor.ExpectedStep | src/nebula_watcher/nebula_watcher.py:347-353 | One more new match, marked then backfilled by the render, gives the state expected for the longer list of new matches. |
| Monitor.Poll | src/nebula_watcher/nebula_watcher.py:333-353 | After one pass the remembered keys grow by exactly the keys of the new matches, and the diagram is rendered once per new key. The state is every new match marked green on the backfilled map, or unchanged when nothing is new. Nothing green turns red. |
| Monitor.PollMarksEveryNewMatch | src/nebula_watcher/nebula_watcher.py:347-352 | Every match of the pass whose key was new ends with its address and its port green. |
| Monitor.NothingNewTwice | src/nebula_watcher/nebula_watcher.py:341-344 | Once a pass has remembered its keys, the same connections give no new match and no render. |
| Monitor.ReimportSpacing | src/nebula_watcher/nebula_watcher.py:316-329 | Consecutive re-imports are more than 60 seconds apart (`Due`), and every loop turn between them is within 60 seconds of the earlier one. |
| Monitor.QuietSince | src/nebula_watcher/nebula_watcher.py:326-329 | `LastImport`, the last import time, is the time of the latest re-import turn. |
| Monitor.FirstTurnReimports | src/nebula_watcher/nebula_watcher.py:318-329 | With the last import time starting at 0, the first re-import happens at the first turn whose time exceeds 60. |
| Monitor.NoReimportYet | src/nebula_watcher/nebula_watcher.py:318-329 | While no turn has re-imported, the last import time is still its starting value. |
| BumpVersion.VersionAtIsPatternMatch | bump_version.py:7 | The scanner's match at a position is exactly `version='([\d.]+)'`: the prefix, a non-empty run of digits and dots, and a quote. |
| BumpVersion.SearchFrom | bump_version.py:7-8 | The search finds the leftmost match, and finds none only when no position matches. |
| BumpVersion.Bump | bump_version.py:7-29 | The script ends with "not found" (exit status 1) exactly when no position of the file matches the pattern (`FindVersion` finds nothing). |
| BumpVersion.BumpUsesFirstMatch | bump_version.py:7-13 | A bump uses the leftmost match, whose group is digits and dots, and writes its next version. |
| BumpVersion.NextVersionSegments | bump_version.py:9-13 | `NextVersion` keeps as many dot-separated pieces as the old version, all but the last unchanged. The last piece's value is one more than before, with no leading zero. |
| BumpVersion.VersionPiecesAreDigits | bump_version.py:7-12 | Each dot-separated piece of a found version is a string of digits, so `int` fails only on an empty piece. |
| BumpVersion.LeadingZerosDropped | bump_version.py:12 | `1.009` becomes `1.10`. |
| BumpVersion.TrailingDotFails | bump_version.py:7-12 | The script fails in `int('')` exactly when the version it finds ends with a dot. |
| BumpVersion.BumpRewritesOnlyTheTag | bump_version.py:15 | Every occurrence of `version='<old>'` becomes `version='<new>'`. The old file is pieces joined by the old tag, and no piece holds the old tag. The new file is the same pieces joined by the new tag, so all text between occurrences is unchanged. |
| Text.ReplaceKeepsOtherText | bump_version.py:15 | `Replace` leaves the text between occurrences alone: input and output are the same `Split` pieces, joined by the old text and by the new text. |
| Text.SplitJoinRoundTrip | bump_version.py:9-13 | `Join` of the `Split` pieces with the same separator gives back the original string. |
| Text.SplitJoinSingle | bump_version.py:9-13 | Splitting the join of separator-free pieces at a one-character separator gives back the pieces. |
| Text.ReplaceIsSplitJoin | bump_version.py:15 | `str.replace` is split at the old text, then join with the new text. |
| Text.SplitPieces | bump_version.py:9 | No piece of a split at one character holds that character, and every character of a piece comes from the input. |
| Text.SplitPiecesFree | bump_version.py:15 | For any non-empty separator, no occurrence of it starts inside a piece of the split, so every occurrence in the input is a cut. |
| Text.LastPieceEmpty | bump_version.py:9-12 | The last piece of a split at one character is empty exactly when the text is empty or ends with that character. |
| Basics.DecimalRoundTrip | bump_version.py:12 | `int(str(n)) == n` for every natural n. |
| Basics.LeadingZeroIgnored | bump_version.py:12 | `int` ignores a leading zero. |

## Left out

- Argument parsing, loading, saving and clearing the JSON state file, and resolving icon paths are left out. They are glue or file I/O, and the colour map is a plain value here.
- Walking the results directory, filtering `.xml` names and `ET.parse` are left out. The import receives the already-parsed document roots, in the order found.
- All `diagrams` rendering (nodes, clusters, edges, the red border for hosts with identifiers) is left out: it is a foreign library.
  - The rendering's `zip` of ports and services is left out with it. Both lists come from sets, so it pairs nothing in particular.
  - Only the colour-map side effects of `generate_diagram` are modelled.
- `psutil.net_connections` is left out: a pass takes its connections as a list of samples. A sample is a flag for a present local address plus an optional (ip, port) remote address; a remote address of another length is absent.
- `time.time`, `time.sleep` and `KeyboardInterrupt` are left out: the timer works on a given list of integer timestamps, and there is no real loop.
- The refresh itself is not modelled. A pass takes the current target list as a parameter, since `parse_nmap` runs again at a refresh (`NmapImport.ParseNmap`).
- The file I/O and the GitHub Actions output of `bump_version.py` are left out. So is the exit status of an uncaught `int('')` failure, which the model reports as `EmptyLastSegment`.
- `setup.py` is not part of this model: it holds packaging settings only.
- A free-text report importer is not part of this model, since none exists.
- `\d` matches only ASCII digits here, and `re.IGNORECASE` is modelled for ASCII letters only. Python's `\d` on `str` also matches other Unicode decimal digits.
- `int()` is modelled only on non-empty strings of ASCII digits, the only kind the version pattern lets through under the ASCII `\d` above. Signs, underscores, surrounding whitespace and non-ASCII digits are left out.
- A missing child (`hostnames/hostname`, `address`, `state` or `service`) makes the program raise AttributeError on `None`. Here the whole import stops with `Missing` and the path that was not found.
- The colour map's address entries always have a `connection` colour here. A hand-edited state file could lack it; the lookup at line 147 then uses red.
- Monitor.Poll: it requires the first new match's address to already be in the colour map, and does not model the KeyError raised when it is not.
  - This happens for an address of a target that arrived in a re-import after the last render.
  - Later new matches need no such condition: the first one's render backfills every target address.
- Monitor.Poll: the diagram rendering is only counted (`renders`), not drawn.

=== FILE: basics.dfy ===
/**
 Small building blocks shared by the watcher model: an optional value (Python's
 `None`), ASCII digits, and the decimal conversions the program relies on —
 `str(n)` for a non-negative integer and `int(s)` for a string of digits.
 */
module Basics {

  /** A value that may be absent, as `dict.get` and `Element.find` return `None`. */
  datatype Option<+T> = None | Some(value: T) {

    /** `x if x is not None else default` */
    function GetOr(default: T): T {
      match this
      case Some(v) => v
      case None => default
    }
  }

  predicate IsDigit(c: char) {
    '0' <= c <= '9'
  }

  predicate AllDigits(s: string) {
    forall i :: 0 <= i < |s| ==> IsDigit(s[i])
  }

  function DigitChar(d: nat): (c: char)
    requires d < 10
    ensures IsDigit(c)
  {
    ('0' as int + d) as char
  }

  function DigitValue(c: char): (d: nat)
    requires IsDigit(c)
    ensures d < 10
  {
    c as int - '0' as int
  }

  /** Python's `str(n)` for a non-negative integer: decimal, no sign, no leading zero. */
  function NatToDecimal(n: nat): (s: string)
    ensures 1 <= |s| && AllDigits(s)
    ensures s[0] == '0' ==> n == 0 && s == "0"
    decreases n
  {
    if n < 10 then [DigitChar(n)] else NatToDecimal(n / 10) + [DigitChar(n % 10)]
  }

  /** Python's `int(s)` on a string of ASCII digits (leading zeros allowed). */
  function DigitsToNat(s: string): nat
    requires AllDigits(s)
    decreases |s|
  {
    if s == [] then 0 else 10 * DigitsToNat(s[..|s| - 1]) + DigitValue(s[|s| - 1])
  }

  /** `int(str(n)) == n` */
  lemma {:induction false} DecimalRoundTrip(n: nat)
    ensures DigitsToNat(NatToDecimal(n)) == n
    decreases n
  {
    var s := NatToDecimal(n);
    if n >= 10 {
      DecimalRoundTrip(n / 10);
      assert s[..|s| - 1] == NatToDecimal(n / 10);
    }
  }

  /** Distinct numbers render to distinct strings. */
  lemma DecimalInjective(a: nat, b: nat)
    requires NatToDecimal(a) == NatToDecimal(b)
    ensures a == b
  {
    DecimalRoundTrip(a);
    DecimalRoundTrip(b);
  }

  /** `int` ignores leading zeros: `int("0" + s) == int(s)`. */
  lemma {:induction false} LeadingZeroIgnored(s: string)
    requires AllDigits(s)
    ensures AllDigits("0" + s) && DigitsToNat("0" + s) == DigitsToNat(s)
    decreases |s|
  {
    if s != [] {
      var t := "0" + s;
      assert t[..|t| - 1] == "0" + s[..|s| - 1];
      LeadingZeroIgnored(s[..|s| - 1]);
    }
  }
}

=== FILE: bump_version.dfy ===
/**
 The release helper that raises the patch number in `setup.py`. It searches
 the file's text for the first `version='V'`, where V is a non-empty run of
 digits and dots. It splits V at the dots, replaces the last piece by the
 decimal form of its value plus one, and joins the pieces again. Every
 occurrence of `version='V'` in the text is then replaced by the new one.
 Without a match the script stops with exit status 1. An empty last piece
 (a version ending in a dot) makes `int('')` raise.
 */
module BumpVersion {
  import opened Basics
  import opened Text

  /** The literal text before the captured version. */
  const Prefix := "version='"

  /** `[\d.]` */
  predicate VersionChar(c: char) {
    IsDigit(c) || c == '.'
  }

  /** How many characters from position `j` on are digits or dots (the greedy `[\d.]+`). */
  function RunLength(s: string, j: nat): (n: nat)
    requires j <= |s|
    ensures j + n <= |s|
    ensures forall k :: j <= k < j + n ==> VersionChar(s[k])
    ensures j + n == |s| || !VersionChar(s[j + n])
    decreases |s| - j
  {
    if j == |s| || !VersionChar(s[j]) then 0 else 1 + RunLength(s, j + 1)
  }

  lemma {:induction false} RunLengthExact(s: string, j: nat, m: nat)
    requires j + m <= |s|
    requires forall k :: j <= k < j + m ==> VersionChar(s[k])
    requires j + m == |s| || !VersionChar(s[j + m])
    ensures RunLength(s, j) == m
    decreases m
  {
    if m > 0 {
      assert VersionChar(s[j]);
      RunLengthExact(s, j + 1, m - 1);
    }
  }

  /** The version captured by a match at position `p`, if the pattern matches there. */
  function VersionAt(s: string, p: nat): Option<string> {
    var start := p + |Prefix|;
    if start <= |s| && s[p..start] == Prefix then
      var n := RunLength(s, start);
      if n > 0 && start + n < |s| && s[start + n] == '\'' then Some(s[start..start + n]) else None
    else None
  }

  /**
   The pattern `version='([\d.]+)'` matches at `p` with group `v`: the prefix,
   then `v` (non-empty, digits and dots), then a quote.
   */
  predicate PatternAt(s: string, p: nat, v: string) {
    && p + |Prefix| + |v| < |s|
    && s[p..p + |Prefix|] == Prefix
    && |v| > 0
    && (forall i :: 0 <= i < |v| ==> VersionChar(v[i]))
    && s[p + |Prefix|..p + |Prefix| + |v|] == v
    && s[p + |Prefix| + |v|] == '\''
  }

  /**
   The scanner's match is the regular expression's. Backtracking cannot help
   the greedy run, because the quote that must follow it is not a digit or dot.
   */
  lemma VersionAtIsPatternMatch(s: string, p: nat, v: string)
    ensures VersionAt(s, p) == Some(v) <==> PatternAt(s, p, v)
  {
    var start := p + |Prefix|;
    if PatternAt(s, p, v) {
      assert forall k :: start <= k < start + |v| ==> s[k] == v[k - start];
      RunLengthExact(s, start, |v|);
    }
    if VersionAt(s, p) == Some(v) {
      var n := RunLength(s, start);
      assert forall i :: 0 <= i < |v| ==> v[i] == s[start + i];
    }
  }

  /** `re.search`: the leftmost match at or after `p`, with its position. */
  function SearchFrom(s: string, p: nat): (r: Option<(nat, string)>)
    ensures r.Some? ==>
      && p <= r.value.0
      && VersionAt(s, r.value.0) == Some(r.value.1)
      && forall q :: p <= q < r.value.0 ==> VersionAt(s, q).None?
    ensures r.None? ==> forall q :: p <= q ==> VersionAt(s, q).None?
    decreases |s| - p
  {
    if p >= |s| then None
    else
      match VersionAt(s, p)
      case Some(v) => Some((p, v))
      case None => SearchFrom(s, p + 1)
  }

  function FindVersion(s: string): Option<(nat, string)> {
    SearchFrom(s, 0)
  }

  /** The pieces of a version are digit strings. */
  lemma VersionPiecesAreDigits(v: string)
    requires forall i :: 0 <= i < |v| ==> VersionChar(v[i])
    ensures forall k :: 0 <= k < |Split(v, ".")| ==> AllDigits(Split(v, ".")[k])
  {
    SplitPieces(v, '.');
    forall k, i | 0 <= k < |Split(v, ".")| && 0 <= i < |Split(v, ".")[k]|
      ensures IsDigit(Split(v, ".")[k][i])
    {
      var x := Split(v, ".")[k][i];
      var j :| 0 <= j < |v| && v[j] == x;
    }
  }

  /**
   The next version: the last piece replaced by `str(int(last) + 1)`, the
   others kept. Nothing when the last piece is empty, where `int('')` raises.
   */
  function NextVersion(v: string): Option<string>
    requires forall i :: 0 <= i < |v| ==> VersionChar(v[i])
  {
    var parts := Split(v, ".");
    var last := parts[|parts| - 1];
    if last == "" then None
    else
      VersionPiecesAreDigits(v);
      Some(Join(parts[..|parts| - 1] + [NatToDecimal(DigitsToNat(last) + 1)], "."))
  }

  /**
   The new version has as many pieces as the old one, all but the last
   unchanged; the last one's value is one more than before, written without
   leading zeros.
   */
  lemma NextVersionSegments(v: string)
    requires forall i :: 0 <= i < |v| ==> VersionChar(v[i])
    requires NextVersion(v).Some?
    ensures var before, after := Split(v, "."), Split(NextVersion(v).value, ".");
      && |after| == |before|
      && after[..|after| - 1] == before[..|before| - 1]
      && AllDigits(before[|before| - 1]) && AllDigits(after[|after| - 1])
      && DigitsToNat(after[|after| - 1]) == DigitsToNat(before[|before| - 1]) + 1
      && after[|after| - 1][0] != '0'
  {
    var parts := Split(v, ".");
    var n := |parts|;
    VersionPiecesAreDigits(v);
    var last := NatToDecimal(DigitsToNat(parts[n - 1]) + 1);
    var pieces := parts[..n - 1] + [last];
    SplitPieces(v, '.');
    forall k | 0 <= k < |pieces|
      ensures '.' !in pieces[k]
    {
      if k < n - 1 {
        assert pieces[k] == parts[k];
        assert forall i :: 0 <= i < |parts[k]| ==> parts[k][i] != '.';
      } else {
        assert forall i :: 0 <= i < |last| ==> IsDigit(last[i]);
      }
    }
    SplitJoinSingle(pieces, '.');
    DecimalRoundTrip(DigitsToNat(parts[n - 1]) + 1);
  }

  /** How the script ends: the new text and version, no match (exit status 1), or `int('')` raising. */
  datatype Outcome = Bumped(content: string, version: string) | NotFound | EmptyLastSegment

  /** `version='<v>'` */
  function Tag(v: string): string {
    Prefix + v + "'"
  }

  /** The script body between reading `setup.py` and writing it back. */
  function Bump(content: string): (r: Outcome)
    ensures r == NotFound <==> forall p :: VersionAt(content, p).None?
  {
    match FindVersion(content)
    case None => NotFound
    case Some((p, v)) =>
      VersionAtIsPatternMatch(content, p, v);
      match NextVersion(v)
      case None => EmptyLastSegment
      case Some(next) => Bumped(Replace(content, Tag(v), Tag(next)), next)
  }

  /**
   A bump uses the leftmost match of the pattern, and the version it writes
   is the next version of the one it found.
   */
  lemma BumpUsesFirstMatch(content: string, p: nat, v: string)
    requires FindVersion(content) == Some((p, v))
    requires Bump(content).Bumped?
    ensures PatternAt(content, p, v)
    ensures forall q: nat :: q < p ==> VersionAt(content, q).None?
    ensures forall i :: 0 <= i < |v| ==> VersionChar(v[i])
    ensures NextVersion(v) == Some(Bump(content).version)
  {
    VersionAtIsPatternMatch(content, p, v);
  }

  /**
   A bump rewrites every occurrence of the old tag and nothing else: the old
   text is some pieces joined by the old tag, no piece holds the old tag, and
   the new text is the same pieces joined by the new tag.
   */
  lemma BumpRewritesOnlyTheTag(content: string, p: nat, v: string)
    requires FindVersion(content) == Some((p, v))
    requires Bump(content).Bumped?
    ensures content == Join(Split(content, Tag(v)), Tag(v))
    ensures forall k :: 0 <= k < |Split(content, Tag(v))| ==> Free(Split(content, Tag(v))[k], Tag(v))
    ensures Bump(content).content == Join(Split(content, Tag(v)), Tag(Bump(content).version))
  {
    ReplaceKeepsOtherText(content, Tag(v), Tag(Bump(content).version));
    SplitPiecesFree(content, Tag(v));
  }

  /** A version ending in a dot is found but cannot be bumped. */
  lemma TrailingDotRaises()
    ensures Bump("version='1.'") == EmptyLastSegment
  {
    var s := "version='1.'";
    assert s[0..9] == Prefix && s[9..11] == "1." && s[11] == '\'';
    assert PatternAt(s, 0, "1.");
    VersionAtIsPatternMatch(s, 0, "1.");
    assert FindVersion(s) == Some((0, "1."));
    assert "1." == "1" + ['.'] + "";
    SplitAtSeparator("1", '.', "");
    assert Split("1.", ".") == ["1", ""];
  }

  /**
   The script fails in `int('')` exactly when the version it finds ends with a
   dot, whatever the rest of the file holds.
   */
  lemma TrailingDotFails(content: string)
    ensures Bump(content) == EmptyLastSegment <==>
      FindVersion(content).Some? && var v := FindVersion(content).value.1; |v| > 0 && v[|v| - 1] == '.'
  {
    match FindVersion(content)
    case None =>
    case Some((p, v)) =>
      VersionAtIsPatternMatch(content, p, v);
      LastPieceEmpty(v, '.');
  }

  /** `int` drops leading zeros, so the bumped piece can be shorter than the old one. */
  lemma LeadingZerosDropped()
    ensures NextVersion("1.009") == Some("1.10")
  {
    var parts := Split("1.009", ".");
    SplitExample();
    ValueExample();
    assert NextVersion("1.009") == Some(Join(parts[..1] + [NatToDecimal(DigitsToNat("009") + 1)], "."));
    assert parts[..1] + [NatToDecimal(10)] == ["1", "10"];
  }

  lemma SplitExample()
    ensures Split("1.009", ".") == ["1", "009"]
  {
    assert "1.009" == "1" + ['.'] + "009";
    SplitAtSeparator("1", '.', "009");
    SplitWithoutSeparator("009", '.');
  }

  lemma ValueExample()
    ensures AllDigits("009") && DigitsToNat("009") == 9
    ensures NatToDecimal(10) == "10"
    ensures Join(["1", "10"], ".") == "1.10"
  {
    assert "009" == "0" + "09" && "09" == "0" + "9";
    LeadingZeroIgnored("09");
    LeadingZeroIgnored("9");
  }
}

=== FILE: coverage.dfy ===
/**
 The coverage state the watcher keeps between renders: for every address, the
 colour of the edge from the user to the host and the colour of each port edge.
 A colour starts red and turns green once traffic to that address and port has
 been seen. Rendering first aggregates the imported host records by address,
 then backfills the state so that every aggregated address and port has a
 colour, and looks colours up with red as the default.
 */
module Coverage {
  import opened Basics
  import opened NmapImport

  datatype Color = Red | Green

  /** What is remembered about one address. */
  datatype IpState = IpState(connection: Color, ports: map<string, Color>)

  /** Address to its remembered colours (`ip_port_color`). */
  type State = map<string, IpState>

  /** The merged record of one address: every port, service and identifier seen for it. */
  datatype Summary = Summary(ports: set<Option<string>>, services: set<Option<string>>, cves: set<string>)

  function PortSet(h: Host): set<Option<string>> {
    set p | p in h.ports
  }

  function ServiceSet(h: Host): set<Option<string>> {
    set v | v in h.services
  }

  function CveSet(h: Host): set<string> {
    h.cves
  }

  /** Everything the records of `hosts` with address `ip` contribute through `field`. */
  function Gather<T>(hosts: seq<Host>, ip: string, field: Host -> set<T>): set<T> {
    set k, x | 0 <= k < |hosts| && hosts[k].ip == ip && x in field(hosts[k]) :: x
  }

  /** The addresses of `hosts`. */
  function Addresses(hosts: seq<Host>): set<string> {
    set k | 0 <= k < |hosts| :: hosts[k].ip
  }

  /** The merged record of `ip`, read off the whole list at once. */
  function SummaryOf(hosts: seq<Host>, ip: string): Summary {
    Summary(Gather(hosts, ip, PortSet), Gather(hosts, ip, ServiceSet), Gather(hosts, ip, CveSet))
  }

  lemma GatherSnoc<T>(hosts: seq<Host>, ip: string, field: Host -> set<T>)
    requires |hosts| > 0
    ensures Gather(hosts, ip, field) ==
      Gather(hosts[..|hosts| - 1], ip, field) + (if hosts[|hosts| - 1].ip == ip then field(hosts[|hosts| - 1]) else {})
  {
    var before := hosts[..|hosts| - 1];
    assert forall k :: 0 <= k < |before| ==> before[k] == hosts[k];
  }

  /** A gathered value comes from some record with that address, and every such record's values are gathered. */
  lemma GatherMember<T>(hosts: seq<Host>, ip: string, field: Host -> set<T>, x: T)
    ensures x in Gather(hosts, ip, field) <==> exists h :: h in hosts && h.ip == ip && x in field(h)
  {
    if exists h :: h in hosts && h.ip == ip && x in field(h) {
      var h :| h in hosts && h.ip == ip && x in field(h);
      var k :| 0 <= k < |hosts| && hosts[k] == h;
    }
  }

  /**
   The aggregation loop of `generate_diagram`: one entry per address, holding the
   union of the ports, services and identifiers of all records with that address.
   */
  function Aggregate(hosts: seq<Host>): (agg: map<string, Summary>)
    ensures agg.Keys == Addresses(hosts)
    ensures forall ip :: ip in agg ==> agg[ip] == SummaryOf(hosts, ip)
    decreases |hosts|
  {
    if |hosts| == 0 then map[]
    else
      var prev := Aggregate(hosts[..|hosts| - 1]);
      var h := hosts[|hosts| - 1];
      var known := if h.ip in prev then prev[h.ip] else Summary({}, {}, {});
      var agg := prev[h.ip := Summary(known.ports + PortSet(h), known.services + ServiceSet(h), known.cves + CveSet(h))];
      AggregateStep(hosts, prev, agg);
      agg
  }

  /** One more record merged into the aggregate of the records before it. */
  lemma AggregateStep(hosts: seq<Host>, prev: map<string, Summary>, agg: map<string, Summary>)
    requires |hosts| > 0
    requires prev.Keys == Addresses(hosts[..|hosts| - 1])
    requires forall ip :: ip in prev ==> prev[ip] == SummaryOf(hosts[..|hosts| - 1], ip)
    requires var h := hosts[|hosts| - 1];
      var known := if h.ip in prev then prev[h.ip] else Summary({}, {}, {});
      agg == prev[h.ip := Summary(known.ports + PortSet(h), known.services + ServiceSet(h), known.cves + CveSet(h))]
    ensures agg.Keys == Addresses(hosts)
    ensures forall ip :: ip in agg ==> agg[ip] == SummaryOf(hosts, ip)
  {
    var before := hosts[..|hosts| - 1];
    var h := hosts[|hosts| - 1];
    assert forall k :: 0 <= k < |before| ==> before[k] == hosts[k];
    assert Addresses(hosts) == Addresses(before) + {h.ip};
    forall ip | ip in agg
      ensures agg[ip] == SummaryOf(hosts, ip)
    {
      GatherSnoc(hosts, ip, PortSet);
      GatherSnoc(hosts, ip, ServiceSet);
      GatherSnoc(hosts, ip, CveSet);
      if ip == h.ip && h.ip !in prev {
        EmptyGather(before, ip, PortSet);
        EmptyGather(before, ip, ServiceSet);
        EmptyGather(before, ip, CveSet);
      }
    }
  }

  lemma EmptyGather<T>(hosts: seq<Host>, ip: string, field: Host -> set<T>)
    requires ip !in Addresses(hosts)
    ensures Gather(hosts, ip, field) == {}
  {
    assert forall k :: 0 <= k < |hosts| ==> hosts[k].ip in Addresses(hosts);
  }

  /**
   Aggregation sees only which records are present: lists with the same members,
   in any order and with any repeats, aggregate alike.
   */
  lemma AggregateDependsOnlyOnMembers(a: seq<Host>, b: seq<Host>)
    requires forall h :: h in a <==> h in b
    ensures Aggregate(a) == Aggregate(b)
  {
    assert forall ip :: ip in Addresses(a) <==> ip in Addresses(b) by {
      forall ip | ip in Addresses(a) ensures ip in Addresses(b) {
        var k :| 0 <= k < |a| && a[k].ip == ip;
        assert a[k] in b;
        var m :| 0 <= m < |b| && b[m] == a[k];
      }
      forall ip | ip in Addresses(b) ensures ip in Addresses(a) {
        var k :| 0 <= k < |b| && b[k].ip == ip;
        assert b[k] in a;
        var m :| 0 <= m < |a| && a[m] == b[k];
      }
    }
    forall ip | ip in Addresses(a)
      ensures SummaryOf(a, ip) == SummaryOf(b, ip)
    {
      SameGather(a, b, ip, PortSet);
      SameGather(a, b, ip, ServiceSet);
      SameGather(a, b, ip, CveSet);
    }
  }

  lemma SameGather<T>(a: seq<Host>, b: seq<Host>, ip: string, field: Host -> set<T>)
    requires forall h :: h in a <==> h in b
    ensures Gather(a, ip, field) == Gather(b, ip, field)
  {
    forall x | x in Gather(a, ip, field) ensures x in Gather(b, ip, field) {
      GatherTransfer(a, b, ip, field, x);
    }
    forall x | x in Gather(b, ip, field) ensures x in Gather(a, ip, field) {
      GatherTransfer(b, a, ip, field, x);
    }
  }

  lemma GatherTransfer<T>(a: seq<Host>, b: seq<Host>, ip: string, field: Host -> set<T>, x: T)
    requires forall h :: h in a ==> h in b
    requires x in Gather(a, ip, field)
    ensures x in Gather(b, ip, field)
  {
    var k :| 0 <= k < |a| && a[k].ip == ip && x in field(a[k]);
    assert a[k] in b;
    var m :| 0 <= m < |b| && b[m] == a[k];
    assert 0 <= m < |b| && b[m].ip == ip && x in field(b[m]);
  }

  /**
   An aggregated address's ports, services and identifiers are exactly those of
   the records with that address.
   */
  lemma AggregateUnion(hosts: seq<Host>, ip: string, p: Option<string>, c: string)
    requires ip in Aggregate(hosts)
    ensures p in Aggregate(hosts)[ip].ports <==> exists h :: h in hosts && h.ip == ip && p in h.ports
    ensures p in Aggregate(hosts)[ip].services <==> exists h :: h in hosts && h.ip == ip && p in h.services
    ensures c in Aggregate(hosts)[ip].cves <==> exists h :: h in hosts && h.ip == ip && c in h.cves
  {
    GatherMember(hosts, ip, PortSet, p);
    GatherMember(hosts, ip, ServiceSet, p);
    GatherMember(hosts, ip, CveSet, c);
  }

  /** A record that appears twice contributes nothing the first copy did not. */
  lemma AggregateIgnoresRepeats(hosts: seq<Host>, i: nat)
    requires i < |hosts|
    ensures Aggregate(hosts + [hosts[i]]) == Aggregate(hosts)
  {
    AggregateDependsOnlyOnMembers(hosts + [hosts[i]], hosts);
  }

  /** `str(port)`: a port id as a state key; an absent id renders as "None". */
  function PortKey(p: Option<string>): string {
    match p
    case Some(s) => s
    case None => "None"
  }

  function PortKeys(ports: set<Option<string>>): set<string> {
    set p | p in ports :: PortKey(p)
  }

  /** The entry of a never-seen address: a red connection and no ports. */
  const Unseen := IpState(Red, map[])

  function Entry(s: State, ip: string): IpState {
    if ip in s then s[ip] else Unseen
  }

  /** `ports` with every key of `keys` it lacks added as red. */
  function FillPorts(ports: map<string, Color>, keys: set<string>): map<string, Color> {
    map k | k in ports.Keys + keys :: if k in ports then ports[k] else Red
  }

  /**
   The state after the backfill of `generate_diagram`: every aggregated address
   has an entry and every aggregated port of it a colour; nothing else is touched.
   */
  function Backfilled(s: State, agg: map<string, Summary>): State {
    map ip | ip in s.Keys + agg.Keys ::
      if ip in agg then IpState(Entry(s, ip).connection, FillPorts(Entry(s, ip).ports, PortKeys(agg[ip].ports)))
      else s[ip]
  }

  /** Every aggregated address and port already has a colour in `s`. */
  predicate Covers(s: State, agg: map<string, Summary>) {
    forall ip :: ip in agg ==> ip in s && PortKeys(agg[ip].ports) <= s[ip].ports.Keys
  }

  /** `b` keeps every address and port of `a`, and nothing green in `a` is red in `b`. */
  predicate Keeps(a: State, b: State) {
    forall ip :: ip in a ==>
      && ip in b
      && a[ip].ports.Keys <= b[ip].ports.Keys
      && (a[ip].connection == Green ==> b[ip].connection == Green)
      && forall k :: k in a[ip].ports && a[ip].ports[k] == Green ==> b[ip].ports[k] == Green
  }

  lemma FillPortsStep(ports: map<string, Color>, keys: set<string>, k: string)
    ensures FillPorts(ports, keys + {k}) ==
      if k in FillPorts(ports, keys) then FillPorts(ports, keys) else FillPorts(ports, keys)[k := Red]
  {
  }

  /** `Backfilled` over the aggregated addresses handled so far, one address more. */
  lemma BackfillStep(s: State, agg: map<string, Summary>, todo: set<string>, ip: string)
    requires ip in todo && todo <= agg.Keys
    ensures Backfilled(s, agg - (todo - {ip})) ==
      Backfilled(s, agg - todo)[ip := IpState(Entry(s, ip).connection, FillPorts(Entry(s, ip).ports, PortKeys(agg[ip].ports)))]
  {
  }

  /** The backfill loops of `generate_diagram`, over addresses and then over their ports. */
  method Backfill(s: State, agg: map<string, Summary>) returns (r: State)
    ensures r == Backfilled(s, agg)
  {
    r := s;
    var todo := agg.Keys;
    while todo != {}
      invariant todo <= agg.Keys
      invariant r == Backfilled(s, agg - todo)
      decreases |todo|
    {
      var ip :| ip in todo;
      var entry := if ip in r then r[ip] else IpState(Red, map[]);
      assert entry == Entry(s, ip);
      var ports := FillEntry(entry.ports, agg[ip].ports);
      BackfillStep(s, agg, todo, ip);
      r := r[ip := IpState(entry.connection, ports)];
      todo := todo - {ip};
    }
    assert agg - todo == agg;
  }

  /** The inner backfill loop: each aggregated port without a colour gets red. */
  method FillEntry(colors: map<string, Color>, ports: set<Option<string>>) returns (r: map<string, Color>)
    ensures r == FillPorts(colors, PortKeys(ports))
  {
    r := colors;
    var pending := ports;
    while pending != {}
      invariant pending <= ports
      invariant r == FillPorts(colors, PortKeys(ports - pending))
      decreases |pending|
    {
      var p :| p in pending;
      FillPortsStep(colors, PortKeys(ports - pending), PortKey(p));
      assert PortKeys(ports - (pending - {p})) == PortKeys(ports - pending) + {PortKey(p)};
      if PortKey(p) !in r {
        r := r[PortKey(p) := Red];
      }
      pending := pending - {p};
    }
    assert ports - pending == ports;
  }

  /**
   After the backfill every aggregated address and port has a colour, no entry is
   lost, and the colours that were there are the colours that stay.
   */
  lemma BackfillCoversAndKeeps(s: State, agg: map<string, Summary>)
    ensures Covers(Backfilled(s, agg), agg)
    ensures Backfilled(s, agg).Keys == s.Keys + agg.Keys
    ensures forall ip :: ip in s ==>
      && Backfilled(s, agg)[ip].connection == s[ip].connection
      && forall k :: k in s[ip].ports ==> Backfilled(s, agg)[ip].ports[k] == s[ip].ports[k]
  {
  }

  /** What the backfill adds is red: a new address has a red connection, a new port a red edge. */
  lemma BackfillAddsRed(s: State, agg: map<string, Summary>, ip: string, k: string)
    requires ip in Backfilled(s, agg)
    ensures ip !in s ==> Backfilled(s, agg)[ip].connection == Red
    ensures k in Backfilled(s, agg)[ip].ports && (ip !in s || k !in s[ip].ports) ==> Backfilled(s, agg)[ip].ports[k] == Red
  {
  }

  /** A state that already covers the aggregate is left as it is. */
  lemma BackfillCovered(s: State, agg: map<string, Summary>)
    requires Covers(s, agg)
    ensures Backfilled(s, agg) == s
  {
    forall ip | ip in agg
      ensures FillPorts(s[ip].ports, PortKeys(agg[ip].ports)) == s[ip].ports
    {
      assert s[ip].ports.Keys + PortKeys(agg[ip].ports) == s[ip].ports.Keys;
    }
  }

  /** Backfilling twice is backfilling once. */
  lemma BackfillIdempotent(s: State, agg: map<string, Summary>)
    ensures Backfilled(Backfilled(s, agg), agg) == Backfilled(s, agg)
  {
    BackfillCoversAndKeeps(s, agg);
    BackfillCovered(Backfilled(s, agg), agg);
  }

  /** The colour of the edge from the user to `ip`. */
  function ConnectionColor(s: State, ip: string): Color
    requires ip in s
  {
    s[ip].connection
  }

  /** `ports.get(str(port), "red")`: the colour of a port edge, red when there is none. */
  function PortColor(s: State, ip: string, port: Option<string>): Color
    requires ip in s
  {
    var k := PortKey(port);
    if k in s[ip].ports then s[ip].ports[k] else Red
  }

  /**
   When rendering, every aggregated port is found in the backfilled state, so the
   red default is never what decides its colour, and an edge is green exactly when
   it was green before the backfill.
   */
  lemma RenderedColors(s: State, agg: map<string, Summary>, ip: string, p: Option<string>)
    requires ip in agg && p in agg[ip].ports
    ensures ip in Backfilled(s, agg) && PortKey(p) in Backfilled(s, agg)[ip].ports
    ensures ConnectionColor(Backfilled(s, agg), ip) == Green <==> ip in s && s[ip].connection == Green
    ensures PortColor(Backfilled(s, agg), ip, p) == Green <==>
      ip in s && PortKey(p) in s[ip].ports && s[ip].ports[PortKey(p)] == Green
  {
  }

  /**
   The update on a new match: the address's connection and the matched port turn
   green; every other address and port keeps its colour.
   */
  function MarkEngaged(s: State, ip: string, key: string): (r: State)
    requires ip in s
    ensures r.Keys == s.Keys
    ensures r[ip].connection == Green && r[ip].ports.Keys == s[ip].ports.Keys + {key} && r[ip].ports[key] == Green
    ensures forall k :: k in s[ip].ports && k != key ==> r[ip].ports[k] == s[ip].ports[k]
    ensures forall other :: other in s && other != ip ==> r[other] == s[other]
  {
    s[ip := IpState(Green, s[ip].ports[key := Green])]
  }

  /** Both the backfill and the update never lose an entry and never turn green to red. */
  lemma UpdatesKeep(s: State, agg: map<string, Summary>, ip: string, key: string)
    requires ip in s
    ensures Keeps(s, Backfilled(s, agg))
    ensures Keeps(s, MarkEngaged(s, ip, key))
  {
  }

  /** `Keeps` chains. */
  lemma KeepsTransitive(a: State, b: State, c: State)
    requires Keeps(a, b) && Keeps(b, c)
    ensures Keeps(a, c)
  {
  }

  /** Marking before or after a backfill gives the same state. */
  lemma MarkCommutesWithBackfill(s: State, agg: map<string, Summary>, ip: string, key: string)
    requires ip in s
    ensures Backfilled(MarkEngaged(s, ip, key), agg) == MarkEngaged(Backfilled(s, agg), ip, key)
  {
    var a := Backfilled(MarkEngaged(s, ip, key), agg);
    var b := MarkEngaged(Backfilled(s, agg), ip, key);
    assert a.Keys == b.Keys;
    forall x | x in a
      ensures a[x] == b[x]
    {
      if x == ip && ip in agg {
        MarkCommutesAt(s, agg, ip, key);
      }
    }
  }

  /** At the marked address itself, the port `key` ends green and the others are filled the same way. */
  lemma MarkCommutesAt(s: State, agg: map<string, Summary>, ip: string, key: string)
    requires ip in s && ip in agg
    ensures Backfilled(MarkEngaged(s, ip, key), agg)[ip] == MarkEngaged(Backfilled(s, agg), ip, key)[ip]
  {
    var a := Backfilled(MarkEngaged(s, ip, key), agg)[ip];
    var b := MarkEngaged(Backfilled(s, agg), ip, key)[ip];
    assert a.ports == b.ports;
  }
}

=== FILE: cve_pattern.dfy ===
/**
 The vulnerability-identifier pattern `CVE-\d{4}-\d{4,7}` compiled with
 `re.IGNORECASE`, and `findall` over it, written as a hand scanner over
 characters. A match at a position is the letters C, V, E in either case, a
 hyphen, four digits, a hyphen, and then as many digits as are there, at most
 seven and at least four. There is no word boundary: an eight-digit tail gives
 its first seven digits. `findall` scans left to right and resumes after each
 match, returning the matched text with the case it had in the input.
 */
module CvePattern {
  import opened Basics

  /** `c` equals the upper-case ASCII letter `u` ignoring case. */
  predicate SameLetter(c: char, u: char)
    requires 'A' <= u <= 'Z'
  {
    c == u || c as int == u as int + 32
  }

  /** Positions `from` up to (not including) `to` of `s` hold digits. */
  predicate DigitsAt(s: string, from: nat, to: nat)
    requires from <= to <= |s|
  {
    forall k :: from <= k < to ==> IsDigit(s[k])
  }

  /** At position `i` of `s` stand `CVE-` (letters in either case), four digits and a hyphen. */
  predicate CveHeadAt(s: string, i: nat) {
    && i + 9 <= |s|
    && SameLetter(s[i], 'C') && SameLetter(s[i + 1], 'V') && SameLetter(s[i + 2], 'E')
    && s[i + 3] == '-'
    && DigitsAt(s, i + 4, i + 8)
    && s[i + 8] == '-'
  }

  /** The whole of `c` is one identifier of the pattern. */
  predicate IsCveId(c: string) {
    && 13 <= |c| <= 16
    && CveHeadAt(c, 0)
    && DigitsAt(c, 9, |c|)
  }

  /** How many digits, up to `cap`, follow position `j` of `s` (the greedy `\d{..cap}`). */
  function DigitRun(s: string, j: nat, cap: nat): (n: nat)
    requires j <= |s|
    ensures n <= cap && j + n <= |s|
    ensures DigitsAt(s, j, j + n)
    ensures n < cap ==> j + n == |s| || !IsDigit(s[j + n])
    decreases cap
  {
    if cap == 0 || j == |s| || !IsDigit(s[j]) then 0
    else 1 + DigitRun(s, j + 1, cap - 1)
  }

  /** The length of the match starting at position `i`, if there is one. */
  function MatchAt(s: string, i: nat): (r: Option<nat>)
    ensures r.Some? ==> 13 <= r.value <= 16 && i + r.value <= |s|
  {
    if CveHeadAt(s, i) then
      var n := DigitRun(s, i + 9, 7);
      if n >= 4 then Some(9 + n) else None
    else None
  }

  /** `c` was matched at position `j` of `s`. */
  predicate MatchedAt(s: string, j: nat, c: string) {
    MatchAt(s, j) == Some(|c|) && c == s[j..j + |c|]
  }

  /** `DigitRun` is exactly the length of a maximal (or capped) run of digits. */
  lemma {:induction false} DigitRunExact(s: string, j: nat, cap: nat, m: nat)
    requires j + m <= |s| && m <= cap
    requires DigitsAt(s, j, j + m)
    requires m == cap || j + m == |s| || !IsDigit(s[j + m])
    ensures DigitRun(s, j, cap) == m
    decreases m
  {
    if m > 0 {
      assert IsDigit(s[j]);
      DigitRunExact(s, j + 1, cap - 1, m - 1);
    }
  }

  /**
   The scanner's match at `i` is the regular expression's: a match of length `n`
   exists exactly when the `n` characters at `i` form an identifier and the
   digit tail could not be extended (it is seven digits long or no digit follows).
   */
  lemma MatchAtIsLongestIdentifier(s: string, i: nat, n: nat)
    ensures MatchAt(s, i) == Some(n) <==>
      && i + n <= |s|
      && IsCveId(s[i..i + n])
      && (n == 16 || i + n == |s| || !IsDigit(s[i + n]))
  {
    if MatchAt(s, i) == Some(n) {
      MatchIsIdentifier(s, i, n);
    }
    if i + n <= |s| && IsCveId(s[i..i + n]) && (n == 16 || i + n == |s| || !IsDigit(s[i + n])) {
      IdentifierIsMatch(s, i, n);
    }
  }

  lemma MatchIsIdentifier(s: string, i: nat, n: nat)
    requires MatchAt(s, i) == Some(n)
    ensures i + n <= |s| && IsCveId(s[i..i + n]) && (n == 16 || i + n == |s| || !IsDigit(s[i + n]))
  {
    var c := s[i..i + n];
    assert forall k :: 0 <= k < n ==> c[k] == s[i + k];
    assert CveHeadAt(s, i);
    assert DigitsAt(s, i + 9, i + n);
  }

  lemma IdentifierIsMatch(s: string, i: nat, n: nat)
    requires i + n <= |s| && IsCveId(s[i..i + n])
    requires n == 16 || i + n == |s| || !IsDigit(s[i + n])
    ensures MatchAt(s, i) == Some(n)
  {
    var c := s[i..i + n];
    assert forall k :: 0 <= k < n ==> c[k] == s[i + k];
    assert CveHeadAt(s, i);
    assert DigitsAt(s, i + 9, i + n) by {
      forall k | i + 9 <= k < i + n ensures IsDigit(s[k]) {
        assert s[k] == c[k - i];
      }
    }
    DigitRunExact(s, i + 9, 7, n - 9);
  }

  /**
   A match cannot begin inside another, since after its first character there
   is no `C` or `c`: the next match starts at or after the end of this one.
   */
  lemma NoMatchInside(s: string, i: nat, j: nat)
    requires MatchAt(s, i).Some? && MatchAt(s, j).Some?
    requires i < j
    ensures i + MatchAt(s, i).value <= j
  {
  }

  /** A matcher gives, per position of `s`, the length of the match there, which fits in `s`. */
  ghost predicate Bounded(s: string, f: nat -> Option<nat>) {
    forall k: nat :: f(k).Some? ==> 0 < f(k).value && k + f(k).value <= |s|
  }

  /** No match of `f` begins inside an earlier one. */
  ghost predicate Disjoint(f: nat -> Option<nat>) {
    forall i: nat, j: nat :: i < j && f(i).Some? && f(j).Some? ==> i + f(i).value <= j
  }

  /**
   The scan of `findall` for any matcher `f`: from position `i`, take the
   match there and resume after it, or move on by one character.
   */
  function ScanWith(s: string, i: nat, f: nat -> Option<nat>): seq<string>
    requires i <= |s| && Bounded(s, f)
    decreases |s| - i
  {
    if i == |s| then []
    else
      match f(i)
      case Some(n) => [s[i..i + n]] + ScanWith(s, i + n, f)
      case None => ScanWith(s, i + 1, f)
  }

  /** Everything the scan from `i` reports is the match of `f` at some position `j` at or after `i`. */
  lemma {:induction false} ScanWithSound(s: string, i: nat, f: nat -> Option<nat>, c: string) returns (j: nat)
    requires i <= |s| && Bounded(s, f)
    requires c in ScanWith(s, i, f)
    ensures i <= j < |s| && f(j).Some? && c == s[j..j + f(j).value]
    decreases |s| - i
  {
    match f(i)
    case Some(n) =>
      if c == s[i..i + n] {
        j := i;
      } else {
        j := ScanWithSound(s, i + n, f, c);
      }
    case None =>
      j := ScanWithSound(s, i + 1, f, c);
  }

  /** When matches do not overlap, every match at or after `i` is reported by the scan from `i`. */
  lemma {:induction false} ScanWithComplete(s: string, i: nat, j: nat, f: nat -> Option<nat>)
    requires Bounded(s, f) && Disjoint(f)
    requires i <= j && f(j).Some?
    ensures s[j..j + f(j).value] in ScanWith(s, i, f)
    decreases j - i
  {
    match f(i)
    case Some(n) =>
      if i < j {
        ScanWithComplete(s, i + n, j, f);
      }
    case None =>
      ScanWithComplete(s, i + 1, j, f);
  }

  /** The regular expression as a matcher. */
  function Matcher(s: string): nat -> Option<nat> {
    (k: nat) => MatchAt(s, k)
  }

  lemma MatcherBounded(s: string)
    ensures Bounded(s, Matcher(s))
  {
  }

  lemma MatcherDisjoint(s: string)
    ensures Disjoint(Matcher(s))
  {
    forall i: nat, j: nat | i < j && MatchAt(s, i).Some? && MatchAt(s, j).Some?
      ensures i + MatchAt(s, i).value <= j
    {
      NoMatchInside(s, i, j);
    }
  }

  /** The matches found scanning from position `i` onward. */
  function ScanFrom(s: string, i: nat): seq<string>
    requires i <= |s|
  {
    MatcherBounded(s);
    ScanWith(s, i, Matcher(s))
  }

  /** `CVE_PATTERN.findall(s)` */
  function FindAll(s: string): seq<string> {
    ScanFrom(s, 0)
  }

  /**
   `findall` returns exactly the identifiers that begin at some position of `s`,
   each the longest one there, copied from `s` with its original case.
   */
  lemma FindAllExact(s: string, c: string)
    ensures c in FindAll(s) <==> exists j :: 0 <= j < |s| && MatchedAt(s, j, c)
  {
    if c in FindAll(s) {
      var j := FindAllSound(s, c);
    }
    forall j | 0 <= j < |s| && MatchedAt(s, j, c)
      ensures c in FindAll(s)
    {
      FindAllComplete(s, j);
    }
  }

  lemma FindAllSound(s: string, c: string) returns (j: nat)
    requires c in FindAll(s)
    ensures j < |s| && MatchedAt(s, j, c)
  {
    FindAllIsScan(s);
    j := ScanWithSound(s, 0, Matcher(s), c);
    MatcherMatched(s, j, c);
  }

  /** What `Matcher(s)` reports at `j` is a match of the regular expression there. */
  lemma MatcherMatched(s: string, j: nat, c: string)
    requires Matcher(s)(j).Some? && j + Matcher(s)(j).value <= |s|
    requires c == s[j..j + Matcher(s)(j).value]
    ensures MatchedAt(s, j, c)
  {
    var m := Matcher(s)(j).value;
    assert MatchAt(s, j) == Some(m) && m == |c|;
  }

  lemma FindAllComplete(s: string, j: nat)
    requires MatchAt(s, j).Some?
    ensures s[j..j + MatchAt(s, j).value] in FindAll(s)
  {
    var f := Matcher(s);
    var m := MatchAt(s, j).value;
    assert f(j) == Some(m);
    MatcherBounded(s);
    MatcherDisjoint(s);
    ScanWithComplete(s, 0, j, f);
    FindAllIsScan(s);
  }

  lemma FindAllIsScan(s: string)
    ensures Bounded(s, Matcher(s)) && FindAll(s) == ScanWith(s, 0, Matcher(s))
  {
    MatcherBounded(s);
  }

  /** Every identifier `findall` returns has the shape of the pattern. */
  lemma FindAllWellFormed(s: string, c: string)
    requires c in FindAll(s)
    ensures IsCveId(c)
  {
    var j := FindAllSound(s, c);
    MatchAtIsLongestIdentifier(s, j, |c|);
  }

  /** A scan over positions where nothing matches reports nothing. */
  lemma {:induction false} ScanWithoutMatches(s: string, i: nat)
    requires i <= |s|
    requires forall j :: i <= j < |s| ==> MatchAt(s, j).None?
    ensures ScanFrom(s, i) == []
    decreases |s| - i
  {
    if i < |s| {
      ScanWithoutMatches(s, i + 1);
    }
  }

  /** Text shorter than the shortest identifier holds none. */
  lemma ShortTextNoMatch(s: string)
    requires |s| < 13
    ensures FindAll(s) == []
  {
    ScanWithoutMatches(s, 0);
  }

  /** A string that is one identifier, with a tail of four to seven digits, is found whole. */
  lemma WholeIdentifierFound(s: string)
    requires IsCveId(s)
    ensures FindAll(s) == [s]
  {
    MatchAtIsLongestIdentifier(s, 0, |s|);
    assert s[0..|s|] == s;
    assert ScanFrom(s, |s|) == [];
  }

  /** Case is ignored when matching and kept in the result. */
  lemma LowerCaseKept()
    ensures FindAll("cve-2023-1234") == ["cve-2023-1234"]
  {
    WholeIdentifierFound("cve-2023-1234");
  }

  /** An eight-digit tail yields its first seven digits; the eighth is left behind. */
  lemma EightDigitTailTruncated()
    ensures FindAll("CVE-2021-12345678") == ["CVE-2021-1234567"]
  {
    var s := "CVE-2021-12345678";
    SevenDigitsTaken(s);
    assert s[0..16] == "CVE-2021-1234567";
    assert ScanFrom(s, 16) == [];
  }

  /** The match at the start of an eight-digit tail stops after seven digits. */
  lemma SevenDigitsTaken(s: string)
    requires s == "CVE-2021-12345678"
    ensures MatchAt(s, 0) == Some(16)
  {
    MatchAtIsLongestIdentifier(s, 0, 16);
    assert IsCveId(s[0..16]);
  }

  /** Three digits after the year are not enough, however long the text. */
  lemma ShortTailRejected()
    ensures FindAll("CVE-2021-123 x") == []
  {
    var s := "CVE-2021-123 x";
    forall j | 0 <= j < |s|
      ensures MatchAt(s, j).None?
    {
      if j == 0 {
        DigitRunExact(s, 9, 7, 3);
      }
    }
    ScanWithoutMatches(s, 0);
  }
}

=== FILE: monitor.dfy ===
/**
 One turn of the monitoring loop. The clock check re-imports the scan results
 when more than `RefreshInterval` seconds have passed since the last import.
 The poll then walks the current connections, and for each one with a local
 address and a two-part remote address it walks the targets. A connection
 matches a target when the remote address equals the target's address and the
 decimal remote port is one of the target's open ports. The first time an
 "ip:port" pair matches, it is remembered, its address and port turn green, and
 the diagram is regenerated (aggregate, backfill, save).
 */
module Monitor {
  import opened Basics
  import opened NmapImport
  import opened Coverage

  /** Seconds between re-imports of the scan results. */
  const RefreshInterval := 60

  /** `conn.raddr`: empty, or an address and a port. */
  datatype Remote = NoRemote | Remote(ip: string, port: nat)

  /** One entry of the connection table: whether it has a local address, and its remote end. */
  datatype Sample = Sample(hasLocal: bool, remote: Remote)

  /** A matched remote address and port. */
  datatype Hit = Hit(ip: string, port: nat)

  /** `str(remote_port)` */
  function PortText(port: nat): string {
    NatToDecimal(port)
  }

  /** `f"{remote_ip}:{remote_port}"`, the text remembered in `unique_matches`. */
  function Key(h: Hit): string {
    h.ip + ":" + PortText(h.port)
  }

  /** The port's digits end the key, right after the last colon. */
  lemma KeyParts(h: Hit)
    ensures var k, d := Key(h), PortText(h.port);
      && |k| == |h.ip| + 1 + |d|
      && k[|h.ip|] == ':'
      && k[..|h.ip|] == h.ip
      && k[|h.ip| + 1..] == d
  {
  }

  /**
   Different pairs give different keys, even when the address itself contains
   colons: the port is the run of digits after the last colon.
   */
  lemma KeyInjective(a: Hit, b: Hit)
    requires Key(a) == Key(b)
    ensures a == b
  {
    var k := Key(a);
    var da, db := PortText(a.port), PortText(b.port);
    KeyParts(a);
    KeyParts(b);
    if |da| < |db| {
      assert false;
    } else if |db| < |da| {
      assert false;
    } else {
      DecimalInjective(a.port, b.port);
    }
  }

  /** `conn.laddr and len(conn.raddr) == 2`, then `remote_ip == target["ip"] and str(remote_port) in target["ports"]`. */
  predicate Matches(s: Sample, t: Host) {
    && s.hasLocal
    && s.remote.Remote?
    && s.remote.ip == t.ip
    && Some(PortText(s.remote.port)) in t.ports
  }

  function HitOf(s: Sample): Hit
    requires s.remote.Remote?
  {
    Hit(s.remote.ip, s.remote.port)
  }

  /** The matches of one sample against the targets, in target order, one per matching target. */
  function SampleHits(s: Sample, targets: seq<Host>): seq<Hit>
    decreases |targets|
  {
    if |targets| == 0 then []
    else SampleHits(s, targets[..|targets| - 1]) + (if Matches(s, targets[|targets| - 1]) then [HitOf(s)] else [])
  }

  /** The matches of all samples, in the order the nested loops meet them. */
  function Hits(samples: seq<Sample>, targets: seq<Host>): seq<Hit>
    decreases |samples|
  {
    if |samples| == 0 then []
    else Hits(samples[..|samples| - 1], targets) + SampleHits(samples[|samples| - 1], targets)
  }

  /** A sample yields its pair once for every target it matches, and nothing else. */
  lemma {:induction false} SampleHitsMembers(s: Sample, targets: seq<Host>)
    ensures forall h :: h in SampleHits(s, targets) <==>
      exists k :: 0 <= k < |targets| && Matches(s, targets[k]) && h == HitOf(s)
    decreases |targets|
  {
    if |targets| > 0 {
      var before := targets[..|targets| - 1];
      SampleHitsMembers(s, before);
      assert forall k :: 0 <= k < |before| ==> before[k] == targets[k];
    }
  }

  /** The matches are exactly the pairs of samples that match some target. */
  lemma {:induction false} HitsMembers(samples: seq<Sample>, targets: seq<Host>)
    ensures forall h :: h in Hits(samples, targets) <==>
      exists i, k :: 0 <= i < |samples| && 0 <= k < |targets| && Matches(samples[i], targets[k]) && h == HitOf(samples[i])
    decreases |samples|
  {
    if |samples| > 0 {
      var before := samples[..|samples| - 1];
      HitsMembers(before, targets);
      SampleHitsMembers(samples[|samples| - 1], targets);
      assert forall i :: 0 <= i < |before| ==> before[i] == samples[i];
    }
  }

  /** Meeting target `k` of sample `i` adds its match, if any, to those met before. */
  lemma HitsStep(samples: seq<Sample>, targets: seq<Host>, i: nat, k: nat)
    requires i < |samples| && k < |targets|
    ensures Hits(samples[..i], targets) + SampleHits(samples[i], targets[..k + 1]) ==
      Hits(samples[..i], targets) + SampleHits(samples[i], targets[..k])
        + (if Matches(samples[i], targets[k]) then [HitOf(samples[i])] else [])
  {
    assert targets[..k + 1][..k] == targets[..k];
  }

  function KeysOf(hs: seq<Hit>): set<string> {
    set h | h in hs :: Key(h)
  }

  /**
   The matches that are new: each pair whose key was not remembered before, once,
   at its first occurrence.
   */
  function Fresh(hs: seq<Hit>, seen: set<string>): (r: seq<Hit>)
    ensures forall j, k :: 0 <= j < k < |r| ==> Key(r[j]) != Key(r[k])
    ensures forall h :: h in r <==> h in hs && Key(h) !in seen
    decreases |hs|
  {
    if |hs| == 0 then []
    else
      var before := hs[..|hs| - 1];
      var prev := Fresh(before, seen);
      var h := hs[|hs| - 1];
      assert forall x :: x in hs <==> x in before || x == h;
      if Key(h) in seen + KeysOf(prev) then
        if Key(h) !in seen then
          var other :| other in prev && Key(other) == Key(h);
          KeyInjective(other, h);
          prev
        else prev
      else
        assert forall j :: 0 <= j < |prev| ==> Key(prev[j]) in KeysOf(prev);
        prev + [h]
  }

  /** The new matches of a longer run of matches begin with those of a shorter one. */
  lemma {:induction false} FreshGrows(xs: seq<Hit>, ys: seq<Hit>, seen: set<string>)
    requires xs <= ys
    ensures Fresh(xs, seen) <= Fresh(ys, seen)
    decreases |ys|
  {
    if |xs| < |ys| {
      var before := ys[..|ys| - 1];
      assert xs <= before;
      FreshGrows(xs, before, seen);
    } else {
      assert xs == ys;
    }
  }

  lemma {:induction false} SampleHitsGrow(s: Sample, targets: seq<Host>, k: nat)
    requires k <= |targets|
    ensures SampleHits(s, targets[..k]) <= SampleHits(s, targets)
    decreases |targets| - k
  {
    if k < |targets| {
      SampleHitsGrow(s, targets, k + 1);
      assert targets[..k + 1][..k] == targets[..k];
    } else {
      assert targets[..k] == targets;
    }
  }

  lemma {:induction false} HitsGrow(samples: seq<Sample>, targets: seq<Host>, i: nat)
    requires i <= |samples|
    ensures Hits(samples[..i], targets) <= Hits(samples, targets)
    decreases |samples| - i
  {
    if i < |samples| {
      HitsGrow(samples, targets, i + 1);
      assert samples[..i + 1][..i] == samples[..i];
    } else {
      assert samples[..i] == samples;
    }
  }

  /** The matches met part-way through the loops are a prefix of all of them. */
  lemma PartialHits(samples: seq<Sample>, targets: seq<Host>, i: nat, k: nat)
    requires i < |samples| && k <= |targets|
    ensures Hits(samples[..i], targets) + SampleHits(samples[i], targets[..k]) <= Hits(samples, targets)
  {
    SampleHitsGrow(samples[i], targets, k);
    HitsGrow(samples, targets, i + 1);
    assert samples[..i + 1][..i] == samples[..i];
  }

  /** Distinct keys are as many as the matches that carry them. */
  lemma {:induction false} KeysOfDistinct(r: seq<Hit>)
    requires forall j, k :: 0 <= j < k < |r| ==> Key(r[j]) != Key(r[k])
    ensures |KeysOf(r)| == |r|
    decreases |r|
  {
    if |r| > 0 {
      var before := r[..|r| - 1];
      KeysOfDistinct(before);
      assert KeysOf(r) == KeysOf(before) + {Key(r[|r| - 1])};
      assert Key(r[|r| - 1]) !in KeysOf(before);
    }
  }

  /** The ports of `ip` matched by `hits`, as state keys. */
  function HitPorts(hits: set<Hit>, ip: string): set<string> {
    set h | h in hits && h.ip == ip :: PortText(h.port)
  }

  /** One address's entry with the ports `keys` matched: green connection and green ports, when there are any. */
  function MarkEntry(e: IpState, keys: set<string>): IpState {
    if keys == {} then e
    else IpState(Green, map k | k in e.ports.Keys + keys :: if k in keys then Green else e.ports[k])
  }

  /**
   All of `hits` applied at once: each hit address (that has an entry) turns
   green with its hit ports; everything else stays as it was.
   */
  function MarkAll(s: State, hits: set<Hit>): State {
    map ip | ip in s :: MarkEntry(s[ip], HitPorts(hits, ip))
  }

  /**
   What the simultaneous marking does: no entry appears or disappears, every hit
   address and port is green, addresses without a hit are untouched, and nothing
   green turns red.
   */
  lemma MarkAllEffect(s: State, hits: set<Hit>)
    ensures MarkAll(s, hits).Keys == s.Keys
    ensures forall h :: h in hits && h.ip in s ==>
      && MarkAll(s, hits)[h.ip].connection == Green
      && PortText(h.port) in MarkAll(s, hits)[h.ip].ports
      && MarkAll(s, hits)[h.ip].ports[PortText(h.port)] == Green
    ensures forall ip :: ip in s && (forall h :: h in hits ==> h.ip != ip) ==> MarkAll(s, hits)[ip] == s[ip]
    ensures Keeps(s, MarkAll(s, hits))
  {
    assert forall h :: h in hits ==> PortText(h.port) in HitPorts(hits, h.ip);
  }

  lemma MarkAllNothing(s: State)
    ensures MarkAll(s, {}) == s
  {
    assert forall ip :: HitPorts({}, ip) == {};
  }

  lemma MarkEntryStep(e: IpState, keys: set<string>, key: string)
    ensures MarkEntry(e, keys + {key}) == IpState(Green, MarkEntry(e, keys).ports[key := Green])
  {
  }

  lemma HitPortsStep(hits: set<Hit>, h: Hit, ip: string)
    ensures HitPorts(hits + {h}, ip) == HitPorts(hits, ip) + (if ip == h.ip then {PortText(h.port)} else {})
  {
  }

  /** One more update on top of a simultaneous marking is the marking with one more hit. */
  lemma MarkAllStep(s: State, hits: set<Hit>, h: Hit)
    requires h.ip in s
    ensures MarkEngaged(MarkAll(s, hits), h.ip, PortText(h.port)) == MarkAll(s, hits + {h})
  {
    var a := MarkEngaged(MarkAll(s, hits), h.ip, PortText(h.port));
    var b := MarkAll(s, hits + {h});
    assert a.Keys == b.Keys;
    forall ip | ip in s
      ensures a[ip] == b[ip]
    {
      MarkAllStepAt(s, hits, h, ip);
    }
  }

  lemma MarkAllStepAt(s: State, hits: set<Hit>, h: Hit, ip: string)
    requires h.ip in s && ip in s
    ensures MarkEngaged(MarkAll(s, hits), h.ip, PortText(h.port))[ip] == MarkAll(s, hits + {h})[ip]
  {
    var key := PortText(h.port);
    var before := MarkEntry(s[ip], HitPorts(hits, ip));
    assert MarkAll(s, hits)[ip] == before;
    assert MarkAll(s, hits + {h})[ip] == MarkEntry(s[ip], HitPorts(hits + {h}, ip));
    HitPortsStep(hits, h, ip);
    if ip == h.ip {
      MarkEntryStep(s[ip], HitPorts(hits, ip), key);
      assert MarkEngaged(MarkAll(s, hits), h.ip, key)[ip] == IpState(Green, before.ports[key := Green]);
    }
  }

  lemma MarkAllCovers(s: State, hits: set<Hit>, agg: map<string, Summary>)
    requires Covers(s, agg)
    ensures Covers(MarkAll(s, hits), agg)
  {
  }

  /**
   The state a poll leaves: unchanged when nothing new matched, otherwise the
   backfilled state with every new match turned green.
   */
  function Expected(s: State, novel: seq<Hit>, agg: map<string, Summary>): State {
    if |novel| == 0 then s else MarkAll(Backfilled(s, agg), set h | h in novel)
  }

  /** A new match on top of what the poll has done so far, followed by a render. */
  lemma ExpectedStep(s: State, novel: seq<Hit>, agg: map<string, Summary>, h: Hit)
    requires h.ip in agg
    requires |novel| == 0 ==> h.ip in s
    ensures Backfilled(MarkEngaged(Expected(s, novel, agg), h.ip, PortText(h.port)), agg) ==
      Expected(s, novel + [h], agg)
  {
    var b := Backfilled(s, agg);
    BackfillCoversAndKeeps(s, agg);
    assert (set x | x in novel + [h]) == (set x | x in novel) + {h};
    if |novel| == 0 {
      MarkCommutesWithBackfill(s, agg, h.ip, PortText(h.port));
      MarkAllNothing(b);
      MarkAllStep(b, {}, h);
      assert (set x | x in novel) == {};
    } else {
      MarkAllEffect(b, set x | x in novel);
      MarkAllStep(b, (set x | x in novel), h);
      MarkAllCovers(b, (set x | x in novel) + {h}, agg);
      BackfillCovered(MarkAll(b, (set x | x in novel) + {h}), agg);
    }
  }

  /** A poll whose first new match is to an address that has an entry (`monitor_network_connections` raises `KeyError` otherwise). */
  predicate FirstMatchKnown(samples: seq<Sample>, targets: seq<Host>, state: State, seen: set<string>) {
    var novel := Fresh(Hits(samples, targets), seen);
    |novel| > 0 ==> novel[0].ip in state
  }

  /** The loop state after the matches `done`: remembered keys, regenerations, colours. */
  predicate PollInvariant(
    done: seq<Hit>, state: State, seen: set<string>, agg: map<string, Summary>,
    state': State, seen': set<string>, renders: nat)
  {
    && seen' == seen + KeysOf(Fresh(done, seen))
    && renders == |Fresh(done, seen)|
    && state' == Expected(state, Fresh(done, seen), agg)
  }

  /**
   A new match met at sample `i`, target `k` is to an address that has an entry:
   the first new match by the precondition, every later one because the render
   after the first has backfilled all target addresses.
   */
  lemma NewMatchKnown(
    samples: seq<Sample>, targets: seq<Host>, state: State, seen: set<string>,
    i: nat, k: nat, done: seq<Hit>, state': State, seen': set<string>, renders: nat)
    requires FirstMatchKnown(samples, targets, state, seen)
    requires i < |samples| && k < |targets| && Matches(samples[i], targets[k])
    requires done == Hits(samples[..i], targets) + SampleHits(samples[i], targets[..k])
    requires PollInvariant(done, state, seen, Aggregate(targets), state', seen', renders)
    requires Key(HitOf(samples[i])) !in seen'
    ensures HitOf(samples[i]).ip in state'
  {
    var h := HitOf(samples[i]);
    var agg := Aggregate(targets);
    var novel := Fresh(done, seen);
    FreshStep(done, seen, h);
    if |novel| == 0 {
      HitsStep(samples, targets, i, k);
      PartialHits(samples, targets, i, k + 1);
      FreshGrows(done + [h], Hits(samples, targets), seen);
      assert Fresh(done + [h], seen)[0] == h;
    } else {
      assert targets[k].ip in Addresses(targets);
      BackfillCoversAndKeeps(state, agg);
      MarkAllEffect(Backfilled(state, agg), set x | x in novel);
    }
  }

  /** Handling a new match keeps the loop invariant. */
  lemma NewMatchStep(
    state: State, seen: set<string>, agg: map<string, Summary>,
    done: seq<Hit>, h: Hit, state': State, seen': set<string>, renders: nat)
    requires PollInvariant(done, state, seen, agg, state', seen', renders)
    requires h.ip in agg && h.ip in state' && Key(h) !in seen'
    ensures PollInvariant(done + [h], state, seen, agg,
      Backfilled(MarkEngaged(state', h.ip, PortText(h.port)), agg), seen' + {Key(h)}, renders + 1)
  {
    var novel := Fresh(done, seen);
    FreshStep(done, seen, h);
    assert Fresh(done + [h], seen) == novel + [h];
    assert KeysOf(novel + [h]) == KeysOf(novel) + {Key(h)};
    assert |novel| == 0 ==> h.ip in state;
    ExpectedStep(state, novel, agg, h);
  }

  /** A match whose key is remembered changes nothing. */
  lemma RepeatMatchStep(
    state: State, seen: set<string>, agg: map<string, Summary>,
    done: seq<Hit>, h: Hit, state': State, seen': set<string>, renders: nat)
    requires PollInvariant(done, state, seen, agg, state', seen', renders)
    requires Key(h) in seen'
    ensures PollInvariant(done + [h], state, seen, agg, state', seen', renders)
  {
    FreshStep(done, seen, h);
  }

  /**
   One pass over the connection table. It returns the new state, the new
   remembered keys, and how many times the diagram was regenerated.
   */
  method Poll(samples: seq<Sample>, targets: seq<Host>, state: State, seen: set<string>)
    returns (state': State, seen': set<string>, renders: nat)
    requires FirstMatchKnown(samples, targets, state, seen)
    ensures seen' == seen + KeysOf(Fresh(Hits(samples, targets), seen))
    ensures renders == |Fresh(Hits(samples, targets), seen)| == |seen' - seen|
    ensures state' == Expected(state, Fresh(Hits(samples, targets), seen), Aggregate(targets))
    ensures Keeps(state, state')
    ensures forall h :: h in Hits(samples, targets) && Key(h) !in seen ==>
      && h.ip in state' && state'[h.ip].connection == Green
      && PortText(h.port) in state'[h.ip].ports && state'[h.ip].ports[PortText(h.port)] == Green
  {
    var agg := Aggregate(targets);
    ghost var done: seq<Hit> := [];
    state', seen', renders := state, seen, 0;
    var i := 0;
    while i < |samples|
      invariant 0 <= i <= |samples|
      invariant done == Hits(samples[..i], targets)
      invariant PollInvariant(done, state, seen, agg, state', seen', renders)
    {
      state', seen', renders, done := PollSample(samples, targets, state, seen, agg, i, done, state', seen', renders);
      i := i + 1;
    }
    assert samples[..i] == samples;
    NovelCount(done, seen);
    ExpectedKeeps(state, Fresh(done, seen), agg);
    HitsAreTargets(samples, targets);
    PollMarksEveryNewMatch(state, Fresh(done, seen), agg, done, seen);
  }

  /** The inner loop of the poll: sample `i` against every target, in order. */
  method PollSample(
    samples: seq<Sample>, targets: seq<Host>, state: State, seen: set<string>, agg: map<string, Summary>,
    i: nat, ghost done: seq<Hit>, state': State, seen': set<string>, renders: nat)
    returns (state'': State, seen'': set<string>, renders': nat, ghost done': seq<Hit>)
    requires FirstMatchKnown(samples, targets, state, seen)
    requires agg == Aggregate(targets) && i < |samples|
    requires done == Hits(samples[..i], targets)
    requires PollInvariant(done, state, seen, agg, state', seen', renders)
    ensures done' == Hits(samples[..i + 1], targets)
    ensures PollInvariant(done', state, seen, agg, state'', seen'', renders')
    ensures renders <= renders' && seen' <= seen''
  {
    var sample := samples[i];
    state'', seen'', renders', done' := state', seen', renders, done;
    var k := 0;
    assert targets[..0] == [];
    while k < |targets|
      invariant 0 <= k <= |targets|
      invariant done' == Hits(samples[..i], targets) + SampleHits(sample, targets[..k])
      invariant PollInvariant(done', state, seen, agg, state'', seen'', renders')
      invariant renders <= renders' && seen' <= seen''
    {
      HitsStep(samples, targets, i, k);
      if Matches(sample, targets[k]) {
        var h := HitOf(sample);
        assert targets[k].ip in Addresses(targets);
        if Key(h) !in seen'' {
          NewMatchKnown(samples, targets, state, seen, i, k, done', state'', seen'', renders');
          NewMatchStep(state, seen, agg, done', h, state'', seen'', renders');
          seen'' := seen'' + {Key(h)};
          state'' := MarkEngaged(state'', h.ip, PortText(h.port));
          state'' := Backfill(state'', agg);
          renders' := renders' + 1;
        } else {
          RepeatMatchStep(state, seen, agg, done', h, state'', seen'', renders');
        }
        done' := done' + [h];
      }
      k := k + 1;
    }
    assert targets[..k] == targets;
    assert samples[..i + 1][..i] == samples[..i];
  }

  /** The new keys are unseen and as many as the new matches. */
  lemma NovelCount(all: seq<Hit>, seen: set<string>)
    ensures |Fresh(all, seen)| == |KeysOf(Fresh(all, seen))|
    ensures (seen + KeysOf(Fresh(all, seen))) - seen == KeysOf(Fresh(all, seen))
  {
    KeysOfDistinct(Fresh(all, seen));
  }

  /** The state a poll leaves keeps every entry and every green of the state it started from. */
  lemma ExpectedKeeps(state: State, novel: seq<Hit>, agg: map<string, Summary>)
    ensures Keeps(state, Expected(state, novel, agg))
  {
    if |novel| > 0 {
      BackfillCoversAndKeeps(state, agg);
      MarkAllEffect(Backfilled(state, agg), set x | x in novel);
      KeepsTransitive(state, Backfilled(state, agg), Expected(state, novel, agg));
    }
  }

  /** Every match is to one of the targets' addresses. */
  lemma HitsAreTargets(samples: seq<Sample>, targets: seq<Host>)
    ensures forall h :: h in Hits(samples, targets) ==> h.ip in Aggregate(targets)
  {
    HitsMembers(samples, targets);
    forall h | h in Hits(samples, targets)
      ensures h.ip in Addresses(targets)
    {
      var i, k :| 0 <= i < |samples| && 0 <= k < |targets| && Matches(samples[i], targets[k]) && h == HitOf(samples[i]);
    }
  }

  /** How one more match changes the list of new ones. */
  lemma FreshStep(hs: seq<Hit>, seen: set<string>, h: Hit)
    ensures Key(h) !in seen + KeysOf(Fresh(hs, seen)) ==> Fresh(hs + [h], seen) == Fresh(hs, seen) + [h]
    ensures Key(h) in seen + KeysOf(Fresh(hs, seen)) ==> Fresh(hs + [h], seen) == Fresh(hs, seen)
  {
    assert (hs + [h])[..|hs|] == hs;
  }

  /** Every new match is green in the state a poll leaves. */
  lemma PollMarksEveryNewMatch(state: State, novel: seq<Hit>, agg: map<string, Summary>, all: seq<Hit>, seen: set<string>)
    requires novel == Fresh(all, seen)
    requires forall h :: h in all ==> h.ip in agg
    ensures forall h :: h in all && Key(h) !in seen ==>
      var r := Expected(state, novel, agg);
      h.ip in r && r[h.ip].connection == Green && PortText(h.port) in r[h.ip].ports && r[h.ip].ports[PortText(h.port)] == Green
  {
    BackfillCoversAndKeeps(state, agg);
    MarkAllEffect(Backfilled(state, agg), set x | x in novel);
    forall h | h in all && Key(h) !in seen
      ensures h in (set x | x in novel)
    {
    }
  }

  /** After a poll, the same connections match nothing new: the remembered keys cover them. */
  lemma NothingNewTwice(hs: seq<Hit>, seen: set<string>)
    ensures Fresh(hs, seen + KeysOf(Fresh(hs, seen))) == []
  {
    forall h | h in hs
      ensures Key(h) in seen + KeysOf(Fresh(hs, seen))
    {
      if Key(h) !in seen {
        assert h in Fresh(hs, seen);
      }
    }
    FreshAllSeen(hs, seen + KeysOf(Fresh(hs, seen)));
  }

  /** When every key is already remembered, nothing is new. */
  lemma {:induction false} FreshAllSeen(hs: seq<Hit>, seen: set<string>)
    requires forall h :: h in hs ==> Key(h) in seen
    ensures Fresh(hs, seen) == []
    decreases |hs|
  {
    if |hs| > 0 {
      var before := hs[..|hs| - 1];
      assert forall h :: h in before ==> h in hs;
      FreshAllSeen(before, seen);
      assert hs[|hs| - 1] in hs;
    }
  }

  /** The clock check: re-import when more than the interval has passed since `last`. */
  predicate Due(last: int, now: int) {
    now - last > RefreshInterval
  }

  /** The time of the last import after the loop turns at `times`, starting from `start`. */
  function LastImport(times: seq<int>, start: int): int
    decreases |times|
  {
    if |times| == 0 then start
    else
      var last := LastImport(times[..|times| - 1], start);
      if Due(last, times[|times| - 1]) then times[|times| - 1] else last
  }

  /** Whether turn `i` re-imports. */
  predicate ReimportsAt(times: seq<int>, start: int, i: nat)
    requires i < |times|
  {
    Due(LastImport(times[..i], start), times[i])
  }

  /** The last import time after `m` turns, from the one before. */
  lemma LastImportStep(times: seq<int>, start: int, m: nat)
    requires 0 < m <= |times|
    ensures LastImport(times[..m], start) ==
      if ReimportsAt(times, start, m - 1) then times[m - 1] else LastImport(times[..m - 1], start)
  {
    assert times[..m][..m - 1] == times[..m - 1];
  }

  /** After a re-import at turn `i` and none since, the last import time is `times[i]`. */
  lemma {:induction false} QuietSince(times: seq<int>, start: int, i: nat, m: nat)
    requires i < m <= |times|
    requires ReimportsAt(times, start, i)
    requires forall q :: i < q < m ==> !ReimportsAt(times, start, q)
    ensures LastImport(times[..m], start) == times[i]
    decreases m
  {
    LastImportStep(times, start, m);
    if m > i + 1 {
      QuietSince(times, start, i, m - 1);
    }
  }

  /**
   Two consecutive re-imports are more than the interval apart, and every turn
   between them comes within the interval of the first.
   */
  lemma ReimportSpacing(times: seq<int>, start: int, i: nat, j: nat)
    requires i < j < |times|
    requires ReimportsAt(times, start, i) && ReimportsAt(times, start, j)
    requires forall q :: i < q < j ==> !ReimportsAt(times, start, q)
    ensures times[j] - times[i] > RefreshInterval
    ensures forall q :: i < q < j ==> times[q] - times[i] <= RefreshInterval
  {
    QuietSince(times, start, i, j);
    forall q | i < q < j
      ensures times[q] - times[i] <= RefreshInterval
    {
      QuietSince(times, start, i, q);
      assert !ReimportsAt(times, start, q);
    }
  }

  /** Before any re-import the start time is in force, so the first turn decides against it. */
  lemma {:induction false} NoReimportYet(times: seq<int>, start: int, m: nat)
    requires m <= |times|
    requires forall q :: 0 <= q < m ==> !ReimportsAt(times, start, q)
    ensures LastImport(times[..m], start) == start
    decreases m
  {
    if m > 0 {
      LastImportStep(times, start, m);
      NoReimportYet(times, start, m - 1);
    }
  }

  /**
   With the last import time starting at 0 and a clock that reads more than the
   interval (seconds since 1970), the first turn re-imports; until some turn
   re-imports, every turn whose clock is past the interval does.
   */
  lemma FirstTurnReimports(times: seq<int>, m: nat)
    requires m < |times|
    requires forall q :: 0 <= q < m ==> !ReimportsAt(times, 0, q)
    ensures ReimportsAt(times, 0, m) <==> times[m] > RefreshInterval
  {
    NoReimportYet(times, 0, m);
  }
}

=== FILE: nmap_import.dfy ===
/**
 The structured (nmap XML) importer, `parse_nmap`, over documents that are
 already parsed. For every `host` child of a document root it reads the first
 `hostnames/hostname` name and the first `address`, then walks the host's
 `ports/port` elements: a port is kept when its `state` child says exactly
 "open" and its id was not kept before, and its service name is kept beside it,
 with "domain" written as "dns". The host's vulnerability identifiers are those
 found in its `ports/port` subtrees. A `find` that finds nothing makes
 `parse_nmap` raise (it reads `.attrib` of `None`); here the whole import then
 stops with `Missing`.
 */
module NmapImport {
  import opened Basics
  import opened XmlTree

  /** What one `ports/port` element offers: its `portid`, its state and its service name. */
  datatype PortEntry = PortEntry(id: Option<string>, state: Option<string>, service: Option<string>)

  /** One host record; ids and names are absent when the attribute was. */
  datatype Host = Host(
    hostname: string,
    ip: string,
    ports: seq<Option<string>>,
    services: seq<Option<string>>,
    cves: set<string>)

  /** The open ports of a host and their service labels, position by position. */
  datatype OpenPorts = OpenPorts(ports: seq<Option<string>>, services: seq<Option<string>>)

  /** Success, or the path of the child element that `find` did not find. */
  datatype Result<T> = Ok(value: T) | Missing(path: string)

  predicate IsOpen(e: PortEntry) {
    e.state == Some("open")
  }

  /** The name recorded for a service: "domain" is recorded as "dns". */
  function ServiceLabel(name: Option<string>): Option<string> {
    if name == Some("domain") then Some("dns") else name
  }

  /** Entry `i` is open and no earlier open entry has its id: it is the one that is kept. */
  predicate FirstOpen(es: seq<PortEntry>, i: int) {
    && 0 <= i < |es|
    && IsOpen(es[i])
    && forall j :: 0 <= j < i && IsOpen(es[j]) ==> es[j].id != es[i].id
  }

  /** A host's port list has no repeats and one service per port. */
  predicate WellFormedPorts(ports: seq<Option<string>>, services: seq<Option<string>>) {
    && |ports| == |services|
    && forall j, k :: 0 <= j < k < |ports| ==> ports[j] != ports[k]
  }

  /**
   `r` is what the loop over `ports/port` collects from the entries `es`: no
   repeated port and one service per port; a port id exactly when some entry
   is open with it; beside each port the label of the first open entry with
   that id.
   */
  ghost predicate Collects(es: seq<PortEntry>, r: OpenPorts) {
    && WellFormedPorts(r.ports, r.services)
    && (forall x :: x in r.ports <==> exists i :: 0 <= i < |es| && IsOpen(es[i]) && es[i].id == x)
    && forall k :: 0 <= k < |r.ports| ==>
      exists i :: FirstOpen(es, i) && es[i].id == r.ports[k] && r.services[k] == ServiceLabel(es[i].service)
  }

  /** The loop over `ports/port` (keep open ports once, rename `domain`), entry by entry. */
  function CollectOpen(es: seq<PortEntry>): (r: OpenPorts)
    ensures Collects(es, r)
    decreases |es|
  {
    if |es| == 0 then OpenPorts([], [])
    else
      var prev := CollectOpen(es[..|es| - 1]);
      var e := es[|es| - 1];
      var r := if IsOpen(e) && e.id !in prev.ports
        then OpenPorts(prev.ports + [e.id], prev.services + [ServiceLabel(e.service)])
        else prev;
      CollectOpenStep(es, prev, r);
      r
  }

  /** One more entry through the loop keeps `Collects`. */
  lemma CollectOpenStep(es: seq<PortEntry>, prev: OpenPorts, r: OpenPorts)
    requires |es| > 0 && Collects(es[..|es| - 1], prev)
    requires var e := es[|es| - 1];
      r == if IsOpen(e) && e.id !in prev.ports
        then OpenPorts(prev.ports + [e.id], prev.services + [ServiceLabel(e.service)])
        else prev
    ensures Collects(es, r)
  {
    var before := es[..|es| - 1];
    var e := es[|es| - 1];
    var added := IsOpen(e) && e.id !in prev.ports;
    assert forall i :: 0 <= i < |before| ==> before[i] == es[i];
    forall i | FirstOpen(before, i)
      ensures FirstOpen(es, i)
    {
    }
    if added {
      assert forall k :: 0 <= k < |prev.ports| ==> r.ports[k] == prev.ports[k] && r.services[k] == prev.services[k];
      forall j, k | 0 <= j < k < |r.ports|
        ensures r.ports[j] != r.ports[k]
      {
        if k == |prev.ports| {
          assert prev.ports[j] in prev.ports;
        }
      }
    }
    forall x
      ensures x in r.ports <==> exists i :: 0 <= i < |es| && IsOpen(es[i]) && es[i].id == x
    {
      if x in prev.ports {
        var i :| 0 <= i < |before| && IsOpen(before[i]) && before[i].id == x;
        assert IsOpen(es[i]) && es[i].id == x;
      }
      if exists i :: 0 <= i < |es| && IsOpen(es[i]) && es[i].id == x {
        var i :| 0 <= i < |es| && IsOpen(es[i]) && es[i].id == x;
        if i < |before| {
          assert IsOpen(before[i]) && before[i].id == x;
        }
      }
    }
    forall k | 0 <= k < |r.ports|
      ensures exists i :: FirstOpen(es, i) && es[i].id == r.ports[k] && r.services[k] == ServiceLabel(es[i].service)
    {
      if k < |prev.ports| {
        var i :| FirstOpen(before, i) && before[i].id == prev.ports[k] && prev.services[k] == ServiceLabel(before[i].service);
        assert FirstOpen(es, i) && es[i].id == r.ports[k];
      } else {
        assert FirstOpen(es, |es| - 1);
      }
    }
  }

  /** A `ports/port` element has the `state` and `service` children the importer reads. */
  predicate HasPortChildren(p: Element) {
    FindChild(p, "state").Some? && FindChild(p, "service").Some?
  }

  /** Reads one `ports/port` element; its `state` and `service` children must exist. */
  function ReadPort(p: Element): Result<PortEntry> {
    match FindChild(p, "state")
    case None => Missing("state")
    case Some(st) =>
      match FindChild(p, "service")
      case None => Missing("service")
      case Some(sv) => Ok(PortEntry(Attr(p, "portid"), Attr(st, "state"), Attr(sv, "name")))
  }

  /**
   Applies `f` to each element in order and gathers the results; the first
   failure stops everything, as the first exception ends the loop of `parse_nmap`.
   */
  function Traverse<A, B>(xs: seq<A>, f: A -> Result<B>): (r: Result<seq<B>>)
    ensures r.Ok? <==> forall k :: 0 <= k < |xs| ==> f(xs[k]).Ok?
    ensures r.Ok? ==> |r.value| == |xs| && forall k :: 0 <= k < |xs| ==> r.value[k] == f(xs[k]).value
    ensures r.Missing? ==>
      exists k :: 0 <= k < |xs| && f(xs[k]) == Missing(r.path) && forall j :: 0 <= j < k ==> f(xs[j]).Ok?
    decreases |xs|
  {
    if |xs| == 0 then Ok([])
    else
      match f(xs[0])
      case Missing(path) => Missing(path)
      case Ok(y) =>
        var rest := Traverse(xs[1..], f);
        assert forall k :: 1 <= k < |xs| ==> xs[k] == xs[1..][k - 1];
        match rest
        case Missing(path) =>
          var k :| 0 <= k < |xs[1..]| && f(xs[1..][k]) == Missing(path)
            && forall j :: 0 <= j < k ==> f(xs[1..][j]).Ok?;
          assert f(xs[k + 1]) == Missing(path);
          Missing(path)
        case Ok(ys) => Ok([y] + ys)
  }

  /** The port subtrees of a host: `host.findall("ports/port")`. */
  function PortElements(host: Element): seq<Element> {
    FindAllPath(host, "ports", "port")
  }

  /**
   One iteration of the host loop of `parse_nmap`, producing the record that is
   returned (the one with the host-scoped identifiers).
   */
  function ParseHost(host: Element): (r: Result<Host>)
    ensures r.Missing? <==>
      || FindPath(host, "hostnames", "hostname").None?
      || FindChild(host, "address").None?
      || (exists k :: 0 <= k < |PortElements(host)| && !HasPortChildren(PortElements(host)[k]))
    ensures r.Ok? ==>
      && r.value.hostname == Attr(FindPath(host, "hostnames", "hostname").value, "name").GetOr("Unknown")
      && r.value.ip == Attr(FindChild(host, "address").value, "addr").GetOr("Unknown")
    ensures r.Ok? ==>
      && Traverse(PortElements(host), ReadPort).Ok?
      && Collects(Traverse(PortElements(host), ReadPort).value, OpenPorts(r.value.ports, r.value.services))
    ensures r.Ok? ==> WellFormedPorts(r.value.ports, r.value.services)
    ensures r.Ok? ==> forall x :: x in r.value.ports <==>
      exists k :: 0 <= k < |PortElements(host)| && ReadPort(PortElements(host)[k]).Ok?
        && IsOpen(ReadPort(PortElements(host)[k]).value) && ReadPort(PortElements(host)[k]).value.id == x
    ensures r.Ok? ==> forall c :: c in r.value.cves <==>
      exists k :: 0 <= k < |PortElements(host)| && c in InlineCves(PortElements(host)[k])
  {
    match FindPath(host, "hostnames", "hostname")
    case None => Missing("hostnames/hostname")
    case Some(hn) =>
      match FindChild(host, "address")
      case None => Missing("address")
      case Some(addr) =>
        var ps := PortElements(host);
        match Traverse(ps, ReadPort)
        case Missing(path) => Missing(path)
        case Ok(entries) =>
          var open := CollectOpen(entries);
          forall c ensures c in ForestCves(ps, true) <==> exists k :: 0 <= k < |ps| && c in InlineCves(ps[k]) {
            ForestCvesUnion(ps, true, c);
          }
          Ok(Host(
            Attr(hn, "name").GetOr("Unknown"),
            Attr(addr, "addr").GetOr("Unknown"),
            open.ports,
            open.services,
            ForestCves(ps, true)))
  }

  /** The host elements of a document: `xml_root.findall("host")`. */
  function HostElements(root: Element): seq<Element> {
    Tagged(root.children, "host")
  }

  /** The records `parse_nmap` returns for one document: one per `host` element, in order. */
  function ParseDocument(root: Element): (r: Result<seq<Host>>)
    ensures r.Ok? <==> forall k :: 0 <= k < |HostElements(root)| ==> ParseHost(HostElements(root)[k]).Ok?
    ensures r.Ok? ==> |r.value| == |HostElements(root)|
    ensures r.Ok? ==> forall k :: 0 <= k < |HostElements(root)| ==> r.value[k] == ParseHost(HostElements(root)[k]).value
  {
    Traverse(HostElements(root), ParseHost)
  }

  /**
   The document-wide identifier set `parse_nmap` also computes (and puts only in
   the records it does not return).
   */
  function GlobalCves(root: Element): set<string> {
    InlineCves(root)
  }

  /** The lists of `groups`, one after another. */
  function Flatten<T>(groups: seq<seq<T>>): seq<T> {
    if |groups| == 0 then [] else groups[0] + Flatten(groups[1..])
  }

  lemma {:induction false} FlattenMembers<T>(groups: seq<seq<T>>, x: T)
    ensures x in Flatten(groups) <==> exists k :: 0 <= k < |groups| && x in groups[k]
    decreases |groups|
  {
    if |groups| > 0 {
      FlattenMembers(groups[1..], x);
      assert forall k :: 1 <= k < |groups| ==> groups[k] == groups[1..][k - 1];
      if x in Flatten(groups[1..]) {
        var k :| 0 <= k < |groups[1..]| && x in groups[1..][k];
        assert x in groups[k + 1];
      }
    }
  }

  /** `parse_nmap` over every document found: their records, one document after another. */
  function ParseNmap(docs: seq<Element>): (r: Result<seq<Host>>)
    ensures r.Ok? <==> forall k :: 0 <= k < |docs| ==> ParseDocument(docs[k]).Ok?
    ensures r.Ok? ==> forall h :: h in r.value <==>
      exists k :: 0 <= k < |docs| && h in ParseDocument(docs[k]).value
  {
    match Traverse(docs, ParseDocument)
    case Missing(path) => Missing(path)
    case Ok(groups) =>
      forall h ensures h in Flatten(groups) <==> exists k :: 0 <= k < |docs| && h in ParseDocument(docs[k]).value {
        FlattenMembers(groups, h);
      }
      Ok(Flatten(groups))
  }

  /** Every imported record comes from a host element and has a repeat-free port list. */
  lemma ImportedHostsWellFormed(docs: seq<Element>)
    ensures ParseNmap(docs).Ok? ==> forall h :: h in ParseNmap(docs).value ==>
      && WellFormedPorts(h.ports, h.services)
      && exists k, e :: 0 <= k < |docs| && e in HostElements(docs[k]) && ParseHost(e) == Ok(h)
  {
    if ParseNmap(docs).Ok? {
      forall h | h in ParseNmap(docs).value
        ensures WellFormedPorts(h.ports, h.services)
        ensures exists k, e :: 0 <= k < |docs| && e in HostElements(docs[k]) && ParseHost(e) == Ok(h)
      {
        var k :| 0 <= k < |docs| && h in ParseDocument(docs[k]).value;
        var hs := HostElements(docs[k]);
        var j :| 0 <= j < |ParseDocument(docs[k]).value| && ParseDocument(docs[k]).value[j] == h;
        assert hs[j] in hs && ParseHost(hs[j]) == Ok(h);
      }
    }
  }

  /** A host's identifiers are among the document-wide ones. */
  lemma HostCvesWithinGlobal(root: Element, host: Element)
    requires host in root.children
    ensures ParseHost(host).Ok? ==> ParseHost(host).value.cves <= GlobalCves(root)
  {
    if ParseHost(host).Ok? {
      var cves := ParseHost(host).value.cves;
      var ps := PortElements(host);
      ChildCvesWithinParent(root, host, true);
      forall c | c in cves
        ensures c in InlineCves(host)
      {
        var k :| 0 <= k < |ps| && c in InlineCves(ps[k]);
        PathCvesWithin(host, "ports", "port", ps[k], true);
      }
    }
  }
}

=== FILE: text.dfy ===
/**
 Python's `str.split(sep)`, `sep.join(parts)` and `str.replace(old, new)` for a
 non-empty separator, each written as a left-to-right scan, with the facts that
 tie them together: joining what was split gives the input back, and replacing
 is splitting on the old text and joining with the new.
 */
module Text {

  /** `sep.join(parts)` */
  function Join(parts: seq<string>, sep: string): string
  {
    if |parts| == 0 then ""
    else if |parts| == 1 then parts[0]
    else parts[0] + sep + Join(parts[1..], sep)
  }

  /** `s.split(sep)`: cut at every non-overlapping occurrence of `sep`, scanning left to right. */
  function Split(s: string, sep: string): (parts: seq<string>)
    requires |sep| > 0
    ensures |parts| >= 1
    decreases |s|
  {
    if |s| == 0 then [""]
    else if sep <= s then [""] + Split(s[|sep|..], sep)
    else
      var rest := Split(s[1..], sep);
      [[s[0]] + rest[0]] + rest[1..]
  }

  /** `s.replace(pat, rep)`: every non-overlapping occurrence of `pat`, left to right. */
  function Replace(s: string, pat: string, rep: string): string
    requires |pat| > 0
    decreases |s|
  {
    if |s| == 0 then ""
    else if pat <= s then rep + Replace(s[|pat|..], pat, rep)
    else [s[0]] + Replace(s[1..], pat, rep)
  }

  lemma JoinConsChar(c: char, parts: seq<string>, sep: string)
    requires |parts| >= 1
    ensures Join([[c] + parts[0]] + parts[1..], sep) == [c] + Join(parts, sep)
  {
    var q := [[c] + parts[0]] + parts[1..];
    if |parts| > 1 {
      assert q[1..] == parts[1..];
    }
  }

  /** An empty first piece puts the separator at the front of the join. */
  lemma JoinConsEmpty(parts: seq<string>, sep: string)
    requires |parts| >= 1
    ensures Join([""] + parts, sep) == sep + Join(parts, sep)
  {
    assert ([""] + parts)[1..] == parts;
  }

  /** Replacing is splitting on `pat` and joining with `rep`. */
  lemma {:induction false} ReplaceIsSplitJoin(s: string, pat: string, rep: string)
    requires |pat| > 0
    ensures Replace(s, pat, rep) == Join(Split(s, pat), rep)
    decreases |s|
  {
    if |s| == 0 {
    } else if pat <= s {
      var rest := Split(s[|pat|..], pat);
      assert Split(s, pat) == [""] + rest;
      assert Replace(s, pat, rep) == rep + Replace(s[|pat|..], pat, rep);
      ReplaceIsSplitJoin(s[|pat|..], pat, rep);
      JoinConsEmpty(rest, rep);
    } else {
      var rest := Split(s[1..], pat);
      assert Split(s, pat) == [[s[0]] + rest[0]] + rest[1..];
      assert Replace(s, pat, rep) == [s[0]] + Replace(s[1..], pat, rep);
      ReplaceIsSplitJoin(s[1..], pat, rep);
      JoinConsChar(s[0], rest, rep);
    }
  }

  /** `sep.join(s.split(sep)) == s` */
  lemma {:induction false} SplitJoinRoundTrip(s: string, sep: string)
    requires |sep| > 0
    ensures Join(Split(s, sep), sep) == s
    decreases |s|
  {
    if |s| == 0 {
    } else if sep <= s {
      var rest := Split(s[|sep|..], sep);
      assert Split(s, sep) == [""] + rest;
      SplitJoinRoundTrip(s[|sep|..], sep);
      JoinConsEmpty(rest, sep);
      assert s == sep + s[|sep|..];
    } else {
      var rest := Split(s[1..], sep);
      assert Split(s, sep) == [[s[0]] + rest[0]] + rest[1..];
      SplitJoinRoundTrip(s[1..], sep);
      JoinConsChar(s[0], rest, sep);
      assert s == [s[0]] + s[1..];
    }
  }

  /**
   Replacement leaves every stretch of text between occurrences alone: the input
   and the output are the same pieces, joined by `pat` and by `rep` respectively.
   */
  lemma ReplaceKeepsOtherText(s: string, pat: string, rep: string)
    requires |pat| > 0
    ensures s == Join(Split(s, pat), pat)
    ensures Replace(s, pat, rep) == Join(Split(s, pat), rep)
  {
    SplitJoinRoundTrip(s, pat);
    ReplaceIsSplitJoin(s, pat, rep);
  }

  /** A join of two or more pieces ends with the separator and the last piece. */
  lemma {:induction false} JoinLast(parts: seq<string>, sep: string)
    requires |parts| >= 2
    ensures Join(parts, sep) == Join(parts[..|parts| - 1], sep) + sep + parts[|parts| - 1]
    decreases |parts|
  {
    if |parts| > 2 {
      JoinLast(parts[1..], sep);
      assert parts[1..][..|parts| - 2] == parts[..|parts| - 1][1..];
    }
  }

  /**
   The last piece of a split at one character is empty exactly when the text
   is empty or ends with that character.
   */
  lemma LastPieceEmpty(s: string, c: char)
    ensures var parts := Split(s, [c]); parts[|parts| - 1] == "" <==> |s| == 0 || s[|s| - 1] == c
  {
    var parts := Split(s, [c]);
    var last := parts[|parts| - 1];
    SplitJoinRoundTrip(s, [c]);
    SplitPieces(s, c);
    if |parts| == 1 {
      assert s == parts[0];
    } else {
      JoinLast(parts, [c]);
      if last != "" {
        assert s[|s| - 1] == last[|last| - 1];
      }
    }
  }

  /** With a one-character separator that no piece contains, splitting undoes joining. */
  lemma {:induction false} SplitJoinSingle(parts: seq<string>, c: char)
    requires |parts| >= 1
    requires forall k :: 0 <= k < |parts| ==> c !in parts[k]
    ensures Split(Join(parts, [c]), [c]) == parts
    decreases |parts|
  {
    if |parts| == 1 {
      SplitWithoutSeparator(parts[0], c);
    } else {
      var rest := Join(parts[1..], [c]);
      SplitJoinSingle(parts[1..], c);
      SplitAtSeparator(parts[0], c, rest);
      assert Join(parts, [c]) == parts[0] + [c] + rest;
      assert [parts[0]] + parts[1..] == parts;
    }
  }

  /** Text without the separator splits into itself alone. */
  lemma {:induction false} SplitWithoutSeparator(p: string, c: char)
    requires c !in p
    ensures Split(p, [c]) == [p]
    decreases |p|
  {
    if |p| > 0 {
      SplitWithoutSeparator(p[1..], c);
      assert [p[0]] + p[1..] == p;
    }
  }

  /** A separator-free piece followed by the separator is split off whole. */
  lemma {:induction false} SplitAtSeparator(p: string, c: char, t: string)
    requires c !in p
    ensures Split(p + [c] + t, [c]) == [p] + Split(t, [c])
    decreases |p|
  {
    var s := p + [c] + t;
    if |p| > 0 {
      SplitAtSeparator(p[1..], c, t);
      assert s[1..] == p[1..] + [c] + t;
      assert [p[0]] + p[1..] == p;
    } else {
      assert s == [c] + t;
      assert s[1..] == t;
    }
  }

  /** Every piece of a split holds characters of the input and never the separator. */
  lemma {:induction false} SplitPieces(s: string, c: char)
    ensures forall k, i :: 0 <= k < |Split(s, [c])| && 0 <= i < |Split(s, [c])[k]| ==>
      Split(s, [c])[k][i] != c && Split(s, [c])[k][i] in s
    decreases |s|
  {
    if |s| > 0 {
      SplitPieces(s[1..], c);
      var rest := Split(s[1..], [c]);
      assert forall x :: x in s[1..] ==> x in s;
      if [c] <= s {
        assert Split(s, [c]) == [""] + rest;
      } else {
        assert s[0] != c;
        assert Split(s, [c]) == [[s[0]] + rest[0]] + rest[1..];
      }
    }
  }

  /** No occurrence of `sep` starts anywhere in `p`. */
  predicate Free(p: string, sep: string) {
    forall i :: 0 <= i <= |p| - |sep| ==> !(sep <= p[i..])
  }

  /** The first piece of a split is a prefix of the input. */
  lemma {:induction false} FirstPiecePrefix(s: string, sep: string)
    requires |sep| > 0
    ensures Split(s, sep)[0] <= s
    decreases |s|
  {
    if |s| > 0 && !(sep <= s) {
      FirstPiecePrefix(s[1..], sep);
    }
  }

  /**
   Putting in front of a piece free of `sep` a character at which `sep` does not
   start keeps it free, when the result is a prefix of the text.
   */
  lemma ConsFree(c: char, p: string, s: string, sep: string)
    requires |sep| > 0 && Free(p, sep)
    requires [c] + p <= s && !(sep <= s)
    ensures Free([c] + p, sep)
  {
    var q := [c] + p;
    forall i | 0 <= i <= |q| - |sep|
      ensures !(sep <= q[i..])
    {
      if i == 0 {
        assert q[i..] == q;
      } else {
        assert q[i..] == p[i - 1..];
      }
    }
  }

  /**
   No piece of a split holds the separator: every occurrence of `sep` in the
   input is one of the cuts.
   */
  lemma {:induction false} SplitPiecesFree(s: string, sep: string)
    requires |sep| > 0
    ensures forall k :: 0 <= k < |Split(s, sep)| ==> Free(Split(s, sep)[k], sep)
    decreases |s|
  {
    if |s| == 0 {
      assert Split(s, sep) == [""];
    } else if sep <= s {
      SplitPiecesFree(s[|sep|..], sep);
      assert Split(s, sep) == [""] + Split(s[|sep|..], sep);
    } else {
      var rest := Split(s[1..], sep);
      SplitPiecesFree(s[1..], sep);
      FirstPiecePrefix(s[1..], sep);
      ConsFree(s[0], rest[0], s, sep);
      assert Split(s, sep) == [[s[0]] + rest[0]] + rest[1..];
    }
  }
}

=== FILE: xml_tree.dfy ===
/**
 An already-parsed XML document as ElementTree presents it: every element has a
 tag, optional text, its attributes in order, and its children in order. The
 module gives the three ElementTree lookups the importer uses (`attrib.get`,
 `find`/`findall` with a one- or two-step child path) and the two ways the
 program collects vulnerability identifiers from a subtree: the inline scans of
 `parse_nmap` look at tags, text, attribute names and attribute values;
 `_extract_cves` looks at tags, text and attribute values only.
 */
module XmlTree {
  import opened Basics
  import CvePattern

  datatype Element = Element(
    tag: string,
    text: Option<string>,
    attrs: seq<(string, string)>,
    children: seq<Element>)

  /** `attrs.get(name)`: the value under the first attribute called `name`. */
  function Lookup(attrs: seq<(string, string)>, name: string): (r: Option<string>)
    ensures r.None? <==> forall k :: 0 <= k < |attrs| ==> attrs[k].0 != name
    ensures r.Some? ==>
      exists k :: 0 <= k < |attrs| && attrs[k] == (name, r.value) && forall k' :: 0 <= k' < k ==> attrs[k'].0 != name
  {
    if |attrs| == 0 then None
    else if attrs[0].0 == name then Some(attrs[0].1)
    else
      var r := Lookup(attrs[1..], name);
      assert forall k :: 1 <= k < |attrs| ==> attrs[k] == attrs[1..][k - 1];
      r
  }

  /** `e.attrib.get(name)` */
  function Attr(e: Element, name: string): Option<string> {
    Lookup(e.attrs, name)
  }

  /** The elements of `es` with tag `tag`, in order (`findall(tag)` over children `es`). */
  function Tagged(es: seq<Element>, tag: string): (r: seq<Element>)
    ensures forall x :: x in r <==> x in es && x.tag == tag
    ensures |r| <= |es|
  {
    if |es| == 0 then []
    else if es[0].tag == tag then [es[0]] + Tagged(es[1..], tag)
    else Tagged(es[1..], tag)
  }

  /** `findall` keeps document order: it distributes over concatenation and keeps a lone element exactly when its tag matches. */
  lemma {:induction false} TaggedAppend(a: seq<Element>, b: seq<Element>, tag: string)
    ensures Tagged(a + b, tag) == Tagged(a, tag) + Tagged(b, tag)
    ensures forall x :: Tagged([x], tag) == if x.tag == tag then [x] else []
    decreases |a|
  {
    if |a| == 0 {
      assert a + b == b;
    } else {
      assert (a + b)[1..] == a[1..] + b;
      TaggedAppend(a[1..], b, tag);
    }
  }

  /** The first element `findall` gives is the first one in `es` with the tag. */
  lemma {:induction false} TaggedFirst(es: seq<Element>, tag: string)
    requires |Tagged(es, tag)| > 0
    ensures exists k :: 0 <= k < |es| && es[k] == Tagged(es, tag)[0] && forall j :: 0 <= j < k ==> es[j].tag != tag
    decreases |es|
  {
    if es[0].tag != tag {
      TaggedFirst(es[1..], tag);
      var k :| 0 <= k < |es[1..]| && es[1..][k] == Tagged(es[1..], tag)[0]
        && forall j :: 0 <= j < k ==> es[1..][j].tag != tag;
      assert es[k + 1] == Tagged(es, tag)[0];
      assert forall j :: 0 <= j < k + 1 ==> es[j].tag != tag by {
        forall j | 0 < j < k + 1 ensures es[j].tag != tag {
          assert es[j] == es[1..][j - 1];
        }
      }
    }
  }

  /** `e.find(tag)`: the first child with that tag. */
  function FindChild(e: Element, tag: string): (r: Option<Element>)
    ensures r.None? <==> forall c :: c in e.children ==> c.tag != tag
    ensures r.Some? ==> r.value.tag == tag
    ensures r.Some? ==>
      exists k :: 0 <= k < |e.children| && e.children[k] == r.value && forall j :: 0 <= j < k ==> e.children[j].tag != tag
  {
    var found := Tagged(e.children, tag);
    if |found| == 0 then
      assert forall c :: c in e.children && c.tag == tag ==> c in found;
      None
    else
      assert found[0] in found;
      TaggedFirst(e.children, tag);
      Some(found[0])
  }

  /** The `inner` children of the `outer` elements of `es`, in document order. */
  function TaggedGrandchildren(es: seq<Element>, outer: string, inner: string): seq<Element> {
    if |es| == 0 then []
    else (if es[0].tag == outer then Tagged(es[0].children, inner) else []) + TaggedGrandchildren(es[1..], outer, inner)
  }

  /** `findall("outer/inner")` finds exactly the `inner` children of the `outer` elements. */
  lemma {:induction false} TaggedGrandchildrenMembers(es: seq<Element>, outer: string, inner: string, x: Element)
    ensures x in TaggedGrandchildren(es, outer, inner) <==>
      exists c :: c in es && c.tag == outer && x in c.children && x.tag == inner
    decreases |es|
  {
    if |es| > 0 {
      TaggedGrandchildrenMembers(es[1..], outer, inner, x);
      assert forall c :: c in es <==> c == es[0] || c in es[1..];
    }
  }

  /**
   The path lookup keeps document order: the `inner` children of one section
   come before those of every later section.
   */
  lemma {:induction false} TaggedGrandchildrenAppend(a: seq<Element>, b: seq<Element>, outer: string, inner: string)
    ensures TaggedGrandchildren(a + b, outer, inner) == TaggedGrandchildren(a, outer, inner) + TaggedGrandchildren(b, outer, inner)
    decreases |a|
  {
    if |a| == 0 {
      assert a + b == b;
    } else {
      var here := if a[0].tag == outer then Tagged(a[0].children, inner) else [];
      assert (a + b)[0] == a[0] && (a + b)[1..] == a[1..] + b;
      assert TaggedGrandchildren(a + b, outer, inner) == here + TaggedGrandchildren(a[1..] + b, outer, inner);
      assert TaggedGrandchildren(a, outer, inner) == here + TaggedGrandchildren(a[1..], outer, inner);
      TaggedGrandchildrenAppend(a[1..], b, outer, inner);
    }
  }

  /** A lone section contributes its `inner` children, in order, exactly when its tag is `outer`. */
  lemma TaggedGrandchildrenSingle(c: Element, outer: string, inner: string)
    ensures TaggedGrandchildren([c], outer, inner) == if c.tag == outer then Tagged(c.children, inner) else []
  {
    assert [c][1..] == [];
  }

  /** `e.findall("outer/inner")` */
  function FindAllPath(e: Element, outer: string, inner: string): seq<Element> {
    TaggedGrandchildren(e.children, outer, inner)
  }

  /** `e.find("outer/inner")`: the first element `findall` would give. */
  function FindPath(e: Element, outer: string, inner: string): (r: Option<Element>)
    ensures r.None? <==> |FindAllPath(e, outer, inner)| == 0
    ensures r.Some? ==> r.value == FindAllPath(e, outer, inner)[0]
  {
    var found := FindAllPath(e, outer, inner);
    if |found| == 0 then None else Some(found[0])
  }

  /** The identifiers `findall` gives on one string, as a set. */
  function Found(s: string): set<string> {
    set c | c in CvePattern.FindAll(s)
  }

  /** Identifiers in attribute values, and also in attribute names when `names` is set. */
  function AttrCves(attrs: seq<(string, string)>, names: bool): set<string> {
    if |attrs| == 0 then {}
    else
      (if names then Found(attrs[0].0) else {}) + Found(attrs[0].1) + AttrCves(attrs[1..], names)
  }

  /** Identifiers on one element: its tag, its text if it has any, its attributes. */
  function NodeCves(e: Element, names: bool): set<string> {
    Found(e.tag)
    + (match e.text case Some(t) => Found(t) case None => {})
    + AttrCves(e.attrs, names)
  }

  /** Identifiers on every element `e.iter()` visits. */
  function TreeCves(e: Element, names: bool): set<string>
    decreases e, 1
  {
    NodeCves(e, names) + ForestCves(e.children, names)
  }

  /** Identifiers on every element of the subtrees `es`. */
  function ForestCves(es: seq<Element>, names: bool): set<string>
    decreases es, 0
  {
    if |es| == 0 then {} else TreeCves(es[0], names) + ForestCves(es[1..], names)
  }

  /** The inline scans of `parse_nmap`, which include attribute names. */
  function InlineCves(e: Element): set<string> {
    TreeCves(e, true)
  }

  /** `_extract_cves(e)`, which skips attribute names. */
  function ExtractCves(e: Element): set<string> {
    TreeCves(e, false)
  }

  /** The identifiers of a list of subtrees are those of its members, together. */
  lemma {:induction false} ForestCvesUnion(es: seq<Element>, names: bool, c: string)
    ensures c in ForestCves(es, names) <==> exists k :: 0 <= k < |es| && c in TreeCves(es[k], names)
    decreases |es|
  {
    if |es| > 0 {
      ForestCvesUnion(es[1..], names, c);
      assert forall k :: 1 <= k < |es| ==> es[k] == es[1..][k - 1];
      if c in ForestCves(es[1..], names) {
        var k :| 0 <= k < |es[1..]| && c in TreeCves(es[1..][k], names);
        assert es[1..][k] == es[k + 1];
      }
    }
  }

  /** A child's identifiers are among its parent's. */
  lemma ChildCvesWithinParent(e: Element, child: Element, names: bool)
    requires child in e.children
    ensures TreeCves(child, names) <= TreeCves(e, names)
  {
    forall c | c in TreeCves(child, names)
      ensures c in ForestCves(e.children, names)
    {
      var k :| 0 <= k < |e.children| && e.children[k] == child;
      ForestCvesUnion(e.children, names, c);
    }
  }

  /** The identifiers of an element reached by a two-step path are among those of the start. */
  lemma PathCvesWithin(e: Element, outer: string, inner: string, x: Element, names: bool)
    requires x in FindAllPath(e, outer, inner)
    ensures TreeCves(x, names) <= TreeCves(e, names)
  {
    TaggedGrandchildrenMembers(e.children, outer, inner, x);
    var section :| section in e.children && section.tag == outer && x in section.children && x.tag == inner;
    ChildCvesWithinParent(section, x, names);
    ChildCvesWithinParent(e, section, names);
  }

  /** Identifiers in attribute names only. */
  function AttrNameCves(attrs: seq<(string, string)>): set<string> {
    if |attrs| == 0 then {} else Found(attrs[0].0) + AttrNameCves(attrs[1..])
  }

  /** Identifiers in the attribute names of every element of a subtree. */
  function TreeNameCves(e: Element): set<string>
    decreases e, 1
  {
    AttrNameCves(e.attrs) + ForestNameCves(e.children)
  }

  function ForestNameCves(es: seq<Element>): set<string>
    decreases es, 0
  {
    if |es| == 0 then {} else TreeNameCves(es[0]) + ForestNameCves(es[1..])
  }

  lemma {:induction false} AttrCvesSplit(attrs: seq<(string, string)>)
    ensures AttrCves(attrs, true) == AttrCves(attrs, false) + AttrNameCves(attrs)
    decreases |attrs|
  {
    if |attrs| > 0 {
      AttrCvesSplit(attrs[1..]);
    }
  }

  /**
   The two scans differ in attribute names only: the inline scans find exactly
   what `_extract_cves` finds plus what the subtree's attribute names hold.
   */
  lemma {:induction false} InlineIsExtractPlusNames(e: Element)
    ensures InlineCves(e) == ExtractCves(e) + TreeNameCves(e)
    decreases e, 1
  {
    AttrCvesSplit(e.attrs);
    ForestCvesSplit(e.children);
  }

  lemma {:induction false} ForestCvesSplit(es: seq<Element>)
    ensures ForestCves(es, true) == ForestCves(es, false) + ForestNameCves(es)
    decreases es, 0
  {
    if |es| > 0 {
      InlineIsExtractPlusNames(es[0]);
      ForestCvesSplit(es[1..]);
    }
  }

  /**
   An identifier held only in an attribute name is found inline and missed by
   `_extract_cves`: here on an element whose tag and attribute value are too
   short to hold one.
   */
  lemma AttributeNameScannedInlineOnly(tag: string, id: string, value: string)
    requires |tag| < 13 && |value| < 13
    requires CvePattern.IsCveId(id)
    ensures var e := Element(tag, None, [(id, value)], []);
      id in InlineCves(e) && id !in ExtractCves(e)
  {
    var e := Element(tag, None, [(id, value)], []);
    CvePattern.WholeIdentifierFound(id);
    CvePattern.ShortTextNoMatch(tag);
    CvePattern.ShortTextNoMatch(value);
    assert Found(tag) == {} && Found(value) == {} && Found(id) == {id};
    assert e.attrs[1..] == [];
    assert AttrCves(e.attrs[1..], true) == {} && AttrCves(e.attrs[1..], false) == {};
    assert AttrCves(e.attrs, true) == Found(id) + Found(value) + AttrCves(e.attrs[1..], true);
    assert AttrCves(e.attrs, false) == {} && AttrCves(e.attrs, true) == {id};
    assert NodeCves(e, false) == {} && NodeCves(e, true) == {id};
    assert ForestCves(e.children, false) == {};
    assert TreeCves(e, false) == {};
  }

  /** Attribute-value identifiers are among those found when names are scanned too. */
  lemma {:induction false} AttrCvesMonotone(attrs: seq<(string, string)>)
    ensures AttrCves(attrs, false) <= AttrCves(attrs, true)
    decreases |attrs|
  {
    if |attrs| > 0 {
      AttrCvesMonotone(attrs[1..]);
    }
  }

  /** `_extract_cves` never finds more than the inline scans. */
  lemma {:induction false} ExtractWithinInline(e: Element)
    ensures ExtractCves(e) <= InlineCves(e)
    decreases e
  {
    AttrCvesMonotone(e.attrs);
    assert NodeCves(e, false) <= NodeCves(e, true);
    assert ExtractCves(e) == NodeCves(e, false) + ForestCves(e.children, false);
    assert InlineCves(e) == NodeCves(e, true) + ForestCves(e.children, true);
    forall c | c in ForestCves(e.children, false)
      ensures c in ForestCves(e.children, true)
    {
      ForestCvesUnion(e.children, false, c);
      var k :| 0 <= k < |e.children| && c in TreeCves(e.children[k], false);
      ExtractWithinInline(e.children[k]);
      ForestCvesUnion(e.children, true, c);
    }
  }

  /** Every collected identifier has the shape of the pattern. */
  lemma {:induction false} TreeCvesWellFormed(e: Element, names: bool, c: string)
    requires c in TreeCves(e, names)
    ensures CvePattern.IsCveId(c)
    decreases e
  {
    if c in ForestCves(e.children, names) {
      ForestCvesUnion(e.children, names, c);
      var k :| 0 <= k < |e.children| && c in TreeCves(e.children[k], names);
      TreeCvesWellFormed(e.children[k], names, c);
    } else {
      NodeCvesWellFormed(e, names, c);
    }
  }

  lemma NodeCvesWellFormed(e: Element, names: bool, c: string)
    requires c in NodeCves(e, names)
    ensures CvePattern.IsCveId(c)
  {
    if c in Found(e.tag) {
      CvePattern.FindAllWellFormed(e.tag, c);
    } else if e.text.Some? && c in Found(e.text.value) {
      CvePattern.FindAllWellFormed(e.text.value, c);
    } else {
      AttrCvesWellFormed(e.attrs, names, c);
    }
  }

  lemma {:induction false} AttrCvesWellFormed(attrs: seq<(string, string)>, names: bool, c: string)
    requires c in AttrCves(attrs, names)
    ensures CvePattern.IsCveId(c)
    decreases |attrs|
  {
    if c in Found(attrs[0].1) {
      CvePattern.FindAllWellFormed(attrs[0].1, c);
    } else if names && c in Found(attrs[0].0) {
      CvePattern.FindAllWellFormed(attrs[0].0, c);
    } else {
      AttrCvesWellFormed(attrs[1..], names, c);
    }
  }
}
